=== FILE: README.md ===
# Trasporti: the Excel import and the request helpers, in Dafny

This project models the decision logic of a small Express/Mongoose backend for
transport records ("trasporti").

- **The Excel import (`importexcel.js`).** It reads the first sheet of a
  workbook and keeps the columns on a fixed allow-list. It turns every kept
  label into a field name (`normalizeHeader`) and infers a `String`, `Number`
  or `Date` type for the column from its first 200 cells (`detectType`). From
  these descriptors it writes the Mongoose model file `models/Trasporto.js`.
  Finally it replaces the contents of the collection of the `Trasporto` model
  (`trasportos`, the name Mongoose derives from the model name) with one record per row,
  each cell converted according to its column's type.
- **The pure helpers of `server.js`.** These are:
  - the paging arithmetic of the list route;
  - the permissive plate check `isValidTarga`;
  - the discovery of the schema's date field `findDateField`;
  - the filter object the list route builds from its query string;
  - the plate-then-date validation that the create, replace and
    partial-update routes apply to a request body.

The model is functional. Rows, descriptors, records, filters and verdicts are
immutable datatypes, and every operation is a pure function. A few JavaScript
built-ins are large or host dependent:

- `Number(string)`;
- `String(number)`;
- `Date.parse`;
- `Date#toString`;
- canonical Unicode decomposition;
- `setHours` in the local time zone.

These are fields of a `Js.Runtime` value that the operations take as a
parameter, so every property holds for every behaviour of those built-ins.
The remaining JavaScript semantics are written out in module `Js`:

- truthiness;
- `String(v)` and `Number(v)` dispatch;
- `trim` and the `\s` class;
- `parseInt(s, 10)`;
- ASCII `toLowerCase`;
- `new Date(v)`.

Modules, one per file, in dependency order:

| module | file | models |
|---|---|---|
| `Js` | js.dfy | JavaScript values, conversions, `trim`, `parseInt`, `new Date` |
| `HeaderNormalizer` | header_normalizer.dfy | `ALLOWED_HEADERS`, `normalizeHeader` |
| `TypeInference` | type_inference.dfy | `detectType` |
| `SchemaSynthesis` | schema_synthesis.dfy | header selection, descriptors, the schema lines and the model file, and a reader for it |
| `RecordTransform` | record_transform.dfy | the row-to-record conversion |
| `ImportRun` | import_run.dfy | the order of effects of `run` and the state it leaves |
| `Pagination` | pagination.dfy | `page`, `limit`, `skip` and `pages` |
| `Targa` | targa.dfy | `isValidTarga` |
| `DateField` | date_field.dfy | `findDateField` |
| `ListFilter` | list_filter.dfy | the filter of `GET /api/trasporti` |
| `WriteValidation` | write_validation.dfy | the checks of `POST`, `PUT` and `PATCH /api/trasporti` |

Decisions the model makes explicit:

- **`normalizeHeader` is not idempotent.** Line 52 of the import deletes `_`,
  so `n° FATTURA` becomes `n_fattura`, and `n_fattura` in turn becomes
  `nfattura`. Descriptions of the importer that call it idempotent disagree
  with the code. The model follows the code and proves the counterexample
  (`HeaderNormalizer.NotIdempotent`).
- **The three-numbers-and-a-word example depends on `Date.parse`.** The
  column `["1", "2", "3", "x"]` is a `Number` column when `Date.parse`
  rejects the bare numbers. A parser that reads them as years makes it a
  `Date` column, since the date test comes first. `TypeInference.NumbersAndWord`
  proves both outcomes, each under its hypothesis about the parser.
- **The 0.6 threshold is exact.** The `dates / total > 0.6` comparison is
  stated on exact ratios and computed as `5 * dates > 3 * total`. For at most
  200 counted cells this agrees with the double-precision comparison.
  - A ratio of exactly 3/5 rounds to the same double as `0.6`, so it is not
    greater.
  - Any other ratio is at least 1/1000 away from `0.6`, far more than the
    rounding error.
- **Whitespace is treated differently in the two steps.** The import trims a
  cell before testing whether it parses (line 74). It does not trim it before
  converting it under a `Date` column (line 162). `RecordTransform.CoerceDate`
  keeps that difference. `RecordTransform.CoerceDateAgreesWithInference` says
  the two steps agree on cells without surrounding whitespace.
- **`NaN` is modelled as `None`.** A non-numeric `page` or `limit` parses to
  `NaN`, which `Math.max`, `Math.min`, arithmetic and `Math.ceil` carry along.
- **The timestamps can become the date field.** `findDateField` tests
  `/data|date/i`, which `updatedAt` matches and `createdAt` does not. Without a
  `data` path, the timestamps that `{ timestamps: true }` adds can therefore
  become the date field.

## Model

| member | source | states |
|---|---|---|
| Js.Trim | importexcel.js:49 | the trimmed text neither starts nor ends with whitespace |
| Js.TrimInfix | server.js:64 | trim removes a whitespace prefix and a whitespace suffix and nothing else |
| Js.TrimIdempotent | importexcel.js:74 | trimming a second time changes nothing |
| Js.NewDate | server.js:157-161 | `new Date(v)` parses a string, and an array or object through its string form; `undefined` is an Invalid Date, `null` and `false` are time 0, `true` is time 1, a Date keeps its time, and a finite number is truncated and valid exactly when it lies within ±8.64e15 ms |
| Js.ParseIntDecimal | server.js:74-75 | `parseInt(s, 10)` reads back the decimal form of every integer, negative ones included |
| HeaderNormalizer.NormalizeHeader | importexcel.js:47-59 | the empty label gives `field`; any other label gives a name that starts with a lower-case ASCII letter and holds only `[a-z0-9_]`, and that is the cleaned label exactly when the cleaned label starts with a lower-case ASCII letter, and the cleaned label behind `f_` otherwise |
| HeaderNormalizer.CleanChars | importexcel.js:51-54 | after marks, symbols and whitespace runs are rewritten, only lower-case letters, digits and `_` remain |
| HeaderNormalizer.SymbolOnlyLabel | importexcel.js:51-56 | a label with no ASCII letter, digit or space after decomposition normalizes to exactly `f_` |
| HeaderNormalizer.CleanSpaced | importexcel.js:49-54 | two words separated by a space clean to the lower-cased words joined by `_` |
| HeaderNormalizer.CleanSymbolBeforeSpace | importexcel.js:51-54 | a symbol before the space is deleted, so `n° FATTURA` cleans like `n FATTURA` |
| HeaderNormalizer.CleanUnderscored | importexcel.js:52-54 | an `_` between two words is deleted, not kept |
| HeaderNormalizer.AllowedHeaderFields | importexcel.js:26-59 | the 15 allow-listed labels normalize to `f_`, `cliente`, `data`, ..., `n_fattura`, `deposito`, and no two labels to the same name |
| HeaderNormalizer.NotIdempotent | importexcel.js:52-56 | `n° FATTURA` gives `n_fattura`, and normalizing that again gives `nfattura` |
| TypeInference.DetectType | importexcel.js:64-83 | `AUTISTA CARICO` and `AUTISTA SCARICO` are always `String`; a column whose cells are all `""`, `null` or `undefined` is `String` |
| TypeInference.TallyBounds | importexcel.js:69-77 | `nums` and `dates` never exceed `total`, which never exceeds the number of cells |
| TypeInference.TallyNothing | importexcel.js:71-79 | `total` stays 0 exactly when every cell is skipped |
| TypeInference.TallyAppend | importexcel.js:70-77 | each counter over a column is the sum of the counters over any split of it |
| TypeInference.TallySkipped | importexcel.js:71 | a skipped cell changes no counter, wherever it sits |
| TypeInference.RatioThreshold | importexcel.js:80-81 | `x / total > 0.6` on exact ratios is the same as `5x > 3 total` |
| TypeInference.DetectTypeByRatio | importexcel.js:79-82 | with at least one counted cell: `Date` exactly when more than 60% parse as dates; otherwise `Number` exactly when more than 60% parse as numbers; otherwise `String` |
| TypeInference.DateBeatsNumber | importexcel.js:80-81 | a column whose cells all parse as dates is `Date`, however many also parse as numbers |
| TypeInference.AllCount | importexcel.js:70-77 | a counter that accepts every cell equals the number of cells |
| TypeInference.ThreeNumbersAndWord | importexcel.js:69-81 | three number cells and a word make a `Number` column when no cell is a date, and a `Date` column when the numbers are dates |
| TypeInference.NumbersAndWord | importexcel.js:64-83 | `["1", "2", "3", "x"]` is `Number` when `Date.parse` rejects the bare numbers, and `Date` when it accepts them |
| SchemaSynthesis.SelectHeaders | importexcel.js:106 | the kept labels are exactly the first row's labels that are allow-listed, in the first row's order, without repetition |
| SchemaSynthesis.SelectHeadersKeepsAllowed | importexcel.js:106 | a first row of allow-listed labels keeps them all |
| SchemaSynthesis.Sample | importexcel.js:114 | a column sample holds the cells of the first `min(200, rows)` rows, in row order |
| SchemaSynthesis.BuildColumns | importexcel.js:112-117 | one descriptor per kept label, in label order: the label, its normalized field, and the type `detectType` gives its sample of the first 200 rows, so the forced columns are `String` |
| SchemaSynthesis.ColumnsFromSample | importexcel.js:114-115 | two sheets that agree on their first 200 rows get the same descriptors |
| SchemaSynthesis.AllowedColumnsDistinct | importexcel.js:106-117 | distinct allow-listed labels give well-formed, pairwise distinct fields and newline-free labels |
| SchemaSynthesis.RenderLines | importexcel.js:125-126 | one schema line per descriptor, in descriptor order, each the rendering of that descriptor |
| SchemaSynthesis.ParseSchemaLineInverse | importexcel.js:126 | a schema line can be read back into the descriptor it was rendered from |
| SchemaSynthesis.SplitJoin | importexcel.js:127 | joining newline-free lines with `\n` and splitting at the newlines gives the lines back |
| SchemaSynthesis.ModelBody | importexcel.js:129-137 | the template around the schema lines is recognised and peeled off |
| SchemaSynthesis.ModelCodeRoundTrip | importexcel.js:125-137 | the model file determines the descriptors: reading it back gives every column, in order, with its field, type and label |
| RecordTransform.CoerceDate | importexcel.js:161-163 | a `Date` column stores a date or `null`, nothing else |
| RecordTransform.CoerceNumber | importexcel.js:165 | a `Number` column never stores `NaN`; it stores the converted number or 0 |
| RecordTransform.CoerceShape | importexcel.js:161-168 | every stored value has the shape its column's type promises |
| RecordTransform.CoerceNumberFallback | importexcel.js:165 | the converted number is kept exactly when it is truthy or already 0; converting a stored number again leaves it unchanged |
| RecordTransform.CoerceDateParse | importexcel.js:162-163 | `null` exactly for cells whose string form does not parse, and the parsed time otherwise |
| RecordTransform.CoerceDateAgreesWithInference | importexcel.js:161-163 | for a cell without surrounding whitespace, a date is stored exactly when type inference counted it as one |
| RecordTransform.Fill | importexcel.js:157-169 | the descriptor loop adds exactly the descriptors' fields to the object |
| RecordTransform.ToRecord | importexcel.js:157-170 | the record of one row is keyed by exactly the descriptors' fields, and a field holds the cell of the last descriptor that writes it, converted by that descriptor's type |
| RecordTransform.ToRecords | importexcel.js:156-171 | one record per row, in row order, each with exactly the descriptors' fields as keys |
| RecordTransform.FillUntouched | importexcel.js:158-169 | a key no descriptor writes keeps its value |
| RecordTransform.LastWriterWins | importexcel.js:158-169 | the last descriptor writing a field decides its value |
| RecordTransform.RecordContents | importexcel.js:156-171 | with distinct fields, every field holds its cell converted by the column's type, in the shape the type promises |
| ImportRun.RunWorld | importexcel.js:88-190 | replaying the effects of a run gives the state written out by cases: unchanged, only the model file replaced, or model file and collection replaced |
| ImportRun.CompleteRunWorld | importexcel.js:139-183 | a complete run leaves the generated model file and exactly the converted rows |
| ImportRun.AbortBeforeModel | importexcel.js:89-103 | a missing workbook or an empty sheet exits with 1 before any effect |
| ImportRun.ModelBeforeUriCheck | importexcel.js:139-148 | once the sheet has rows, the model file is overwritten even when `MONGO_URI` is missing, and then the run exits with 1 and leaves the collection alone |
| ImportRun.SuccessReplacesCollection | importexcel.js:175-176 | a complete run exits with 0 and leaves exactly one record per row, in row order |
| ImportRun.RunInSourceOrder | importexcel.js:139-183 | the model file is written first, the clear comes after it and after the connection, and the insert comes right after the clear |
| ImportRun.ExitCodeZero | importexcel.js:187-190 | the exit code is 0 or 1, and 0 exactly when the workbook, its rows, `MONGO_URI` and the connection are all there |
| ImportRun.CollectionNeedsClear | importexcel.js:175-176 | the collection changes only in a run that clears it |
| ImportRun.RunIdempotent | importexcel.js:88-185 | importing the same workbook twice leaves the same state as importing it once |
| ImportRun.AllowedColumns | importexcel.js:106-117 | a first row with distinct labels gives well-formed, pairwise distinct fields |
| ImportRun.RecordsHaveShape | importexcel.js:156-171 | every record holds, under every field, a value of the field's type |
| ImportRun.ImportConsistent | importexcel.js:106-176 | end to end: the model file reads back as the descriptors, and the collection holds one well-shaped record per row |
| Pagination.Page | server.js:74 | `page` is at least 1, and `NaN` exactly when its text does not parse |
| Pagination.Limit | server.js:75 | `limit` is between 1 and 100, and `NaN` exactly when its text does not parse |
| Pagination.Skip | server.js:76 | the skip is never negative, and `NaN` when the page or the limit is |
| Pagination.PageCount | server.js:131 | `pages` is never negative, and `NaN` exactly when the limit is |
| Pagination.PageCountIsCeiling | server.js:131 | no pages for no records, and otherwise `(pages - 1) * limit < total <= pages * limit` |
| Pagination.SkipWithinTotal | server.js:76 | page `p` skips fewer than `total` records exactly when `p <= pages` |
| Pagination.Defaults | server.js:74-76 | an absent or empty `page` and `limit` give page 1, limit 50 and skip 0 |
| Pagination.PageRoundTrip | server.js:74 | a page number of 1 or more is taken as written |
| Pagination.LimitClamp | server.js:75 | a limit of 1 to 100 is taken as written; a larger one is cut to 100; 0 or less is raised to 1 |
| Pagination.PageFloor | server.js:74 | a page number of 0 or less, written `-n`, shows page 1 |
| Pagination.ZeroPage | server.js:74 | `page=0` shows page 1 |
| Pagination.NonNumericPage | server.js:74-76 | a non-numeric page makes page and skip `NaN` and leaves the page count alone |
| Pagination.NonNumericLimit | server.js:75-76 | a non-numeric limit makes limit, skip and the page count `NaN` |
| Targa.IsValidTarga | server.js:61-65 | an accepted plate is truthy and trims to 1 to 20 characters |
| Targa.ValidTargaIff | server.js:61-65 | a value is a plate exactly when it is truthy and its trimmed string form matches `[A-Z0-9\s-]{1,20}` in either case |
| Targa.TargaIgnoresSurroundingSpace | server.js:64 | whitespace around a plate does not change the verdict |
| Targa.BlankRejected | server.js:64 | a string of whitespace only is never a plate, however long |
| Targa.AlnumPlate | server.js:64 | every run of 1 to 20 ASCII letters and digits is a plate |
| Targa.TargaExamples | server.js:61-65 | `##` is rejected and `AB123CD` accepted |
| Targa.ObjectAsString | server.js:61-65 | an array or object member is a plate exactly when its string form would be |
| Targa.ArrayPlates | server.js:61-65 | an array is judged by its string form: `["##"]` is rejected and `["AB1"]` accepted |
| Targa.NaNRejected | server.js:62 | the number `NaN` is rejected although its string form is a valid plate |
| DateField.FirstMention | server.js:56 | the index of the first path that contains `data` or `date` in any ASCII case, or the number of paths when none matches |
| DateField.FindDateField | server.js:52-58 | `data` wins whenever it is a path; any other result is a path that contains `data` or `date` in any ASCII case |
| DateField.DateFieldExists | server.js:52-58 | there is a date field exactly when some path matches |
| DateField.DateFieldIsFirst | server.js:56 | without `data`, the date field is the first matching path |
| DateField.FallbackAt | server.js:54-57 | without `data`, the first matching path is the date field |
| DateField.NoDateStart | server.js:56 | a name in which no `d` is followed by three more characters does not match |
| DateField.FilterKeysAreNotDates | server.js:85-94 | `cliente`, `targa` and `regione_carico` never match |
| DateField.TimestampFallback | server.js:52-58 | `createdAt` does not match, and without `data` the timestamp `updatedAt` becomes the date field |
| ListFilter.SearchText | server.js:80 | a search text is kept exactly when `q` is given and non-empty after trimming, and it is `q` trimmed |
| ListFilter.BlankSearchIgnored | server.js:80 | a whitespace-only `q` searches nothing |
| ListFilter.TextClauses | server.js:115-120 | each text clause is a case-insensitive pattern on a listed field that is a schema path |
| ListFilter.NamedConditionsKeys | server.js:85-94 | `cliente`, `targa` and `regione` each add a pattern exactly when given, `regione` on `regione_carico`, and nothing else is added |
| ListFilter.DateFieldNotNamed | server.js:85-102 | the date range never overwrites one of the three named conditions |
| ListFilter.RegexConditions | server.js:82-110 | in the finished filter the three named conditions are exactly those given, with the parameter text as pattern |
| ListFilter.DateKey | server.js:96-110 | the filter constrains only the three named fields and the date field, and the date field exactly when a bound is given and the schema has one |
| ListFilter.DateBounds | server.js:99-108 | `$gte` exactly for a valid `data_from`; `$lte` exactly for a valid `data_to`, moved to the end of its day; neither gives the empty range |
| ListFilter.AnyOfClauses | server.js:87-121 | `$or` exists exactly when a driver or a non-blank text is searched, and holds the two driver clauses first and the text clauses after them |
| ListFilter.TextClausesCount | server.js:115-120 | the text search puts as many clauses on a field as the field is listed, if the schema has it, and none otherwise |
| ListFilter.ModelloTwice | server.js:113-121 | a text search on a schema with `modello` puts two clauses on it into `$or` |
| WriteValidation.ValidateWrite | server.js:149-162 | a rejection is a 400 with `Targa non valida` or `Data non valida` |
| WriteValidation.TargaCheckedFirst | server.js:152-154 | a truthy, invalid plate is reported whatever the date holds |
| WriteValidation.AcceptedIff | server.js:149-162 | a body is accepted exactly when its plate is falsy or valid and its date, if checked, parses; a valid plate with a bad date gets `Data non valida` |
| WriteValidation.AcceptedChangesOnlyDate | server.js:157-162 | an accepted body keeps every member, and only a truthy date member is replaced by the parsed date |
| WriteValidation.MissingBody | server.js:149 | a request without a body is accepted as the empty object |
| WriteValidation.ObjectDateRejected | server.js:157-161 | an object under the date field is truthy and parsed through its string form `[object Object]`, so a parser that rejects that text makes the request fail with `Data non valida` |
| WriteValidation.ValidateIdempotent | server.js:149-162 | the accepted body is accepted again unchanged |

`WriteValidation.ValidateWrite` models lines 149-162 of `server.js`. The
replace route (lines 177-188) and the partial-update route (lines 203-214)
run the same code.

## Left out

- HTTP routing, the middleware, JWT issuing and checking, and the login route: plumbing and cryptographic library calls with no decision logic.
- The `/api/trasporti/search` alias: it forwards the request to the list route.
- The fields Mongoose adds to every stored document: `_id` and `__v` from `insertMany`, and `createdAt` and `updatedAt` from the `{ timestamps: true }` schema option (importexcel.js:134). The collection holds the converted row records without them, since they carry no decision of the import.
- MongoDB and Mongoose: connections, `countDocuments`, `find`, sorting, `save`, `findByIdAndUpdate`, `findByIdAndDelete`, schema casting, and how `$regex`, `$or` and date ranges match documents. Filters are plain data, and the collection is a sequence of records.
- A failing `deleteMany` or `insertMany`, and the dynamic import of the fresh model file: the model assumes the database steps succeed once the connection is made.
- Reading the workbook: the first sheet is given as rows of (label, cell) entries in `Object.keys` order, as `sheet_to_json` with `defval: ""` returns them.
- File existence checks, the creation of the `models` directory, console output and `process.exit`. These are inputs and outcomes of `ImportRun.Run`.
- Number parsing and printing, `Date.parse`, `Date#toString`, Unicode decomposition and `setHours` in the local time zone. These are the fields of `Js.Runtime`, and the model assumes nothing about them beyond what a lemma states as a hypothesis.
- Js.ParseInt: exact on arbitrarily long digit strings, while `parseInt` rounds values beyond 2^53 to the nearest double.
- `setHours(23, 59, 59, 999)` is `Js.Runtime.endOfDay`: a result outside the time range of a `Date` is not modelled.
- Arrays and objects in a JSON body are `Js.Obj` values carried by their string form (`Array.prototype.join` or `[object Object]`), which `String`, `Number` and `new Date` all go through; their elements and members are not modelled, since no check of the routes looks inside them.
- Query parameters that the query parser turns into arrays or objects (`?q=a&q=b`, `?q[x]=1`): the query is a map from names to strings.
- The order of the keys of a record and of a filter object: records and filter conditions are maps.
- The `-0` number: it is not told apart from `0`.
- The model `models/Trasporto.js`, the CRUD routes under `routes/`, `index.js` and `createmaster.js` are not part of this model.

=== FILE: date_field.dfy ===
/**
 `findDateField`: which path of the `Trasporto` schema the list filter and
 the write routes treat as the record's date. A path named `data` wins;
 otherwise the first path, in schema order, whose name contains `data` or
 `date` in any ASCII case; otherwise none.
 */
module DateField {
  import opened Js

  /** `k` starts with `data` or `date`, compared case-insensitively. */
  predicate DateWordAt(k: string) {
    && |k| >= 4
    && LowerChar(k[0]) == 'd' && LowerChar(k[1]) == 'a' && LowerChar(k[2]) == 't'
    && (LowerChar(k[3]) == 'a' || LowerChar(k[3]) == 'e')
  }

  /** `/data|date/i.test(k)` */
  predicate MentionsDate(k: string)
    decreases |k|
  {
    |k| >= 4 && (DateWordAt(k) || MentionsDate(k[1..]))
  }

  /** The index of the first mentioning path, `|paths|` when there is none. */
  function FirstMention(paths: seq<string>): (k: nat)
    ensures k <= |paths|
    ensures forall j | 0 <= j < k :: !MentionsDate(paths[j])
    ensures k < |paths| ==> MentionsDate(paths[k])
  {
    if paths == [] || MentionsDate(paths[0]) then 0 else 1 + FirstMention(paths[1..])
  }

  /**
   `findDateField(model)`, with the schema given as its paths in
   `Object.keys(model.schema.paths)` order. None stands for `null`.
   */
  function FindDateField(paths: seq<string>): (r: Option<string>)
    ensures "data" in paths ==> r == Some("data")
    ensures r.Some? ==> r.value in paths && MentionsDate(r.value)
  {
    if "data" in paths then
      assert MentionsDate("data");
      Some("data")
    else
      var k := FirstMention(paths);
      if k < |paths| then Some(paths[k]) else None
  }

  /** There is a date field exactly when some path mentions a date. */
  lemma DateFieldExists(paths: seq<string>)
    ensures FindDateField(paths).Some? <==> exists i | 0 <= i < |paths| :: MentionsDate(paths[i])
  {
    if "data" !in paths && FindDateField(paths).None? {
      assert forall i | 0 <= i < |paths| :: !MentionsDate(paths[i]);
    }
  }

  /** Without a `data` path, the chosen field is the first path that mentions a date. */
  lemma DateFieldIsFirst(paths: seq<string>)
    requires "data" !in paths
    requires FindDateField(paths).Some?
    ensures exists i | 0 <= i < |paths| ::
      && paths[i] == FindDateField(paths).value
      && forall j | 0 <= j < i :: !MentionsDate(paths[j])
  {
    var k := FirstMention(paths);
    assert paths[k] == FindDateField(paths).value;
  }

  /** A name in which no `d` is followed by three more characters mentions no date. */
  lemma {:induction false} NoDateStart(k: string)
    requires forall i | 0 <= i < |k| - 3 :: LowerChar(k[i]) != 'd'
    ensures !MentionsDate(k)
  {
    if |k| >= 4 {
      assert LowerChar(k[0]) != 'd';
      assert forall i | 0 <= i < |k[1..]| - 3 :: k[1..][i] == k[i + 1];
      NoDateStart(k[1..]);
    }
  }

  /** The fields the list filter writes by name never mention a date. */
  lemma FilterKeysAreNotDates()
    ensures !MentionsDate("cliente") && !MentionsDate("targa") && !MentionsDate("regione_carico")
  {
    NoDateStart("cliente");
    NoDateStart("targa");
    NoDateStart("regione_carico");
  }

  /** The first mentioning path is the one no earlier path precedes. */
  lemma FirstMentionAt(paths: seq<string>, k: nat)
    requires k < |paths| && MentionsDate(paths[k])
    requires forall j | 0 <= j < k :: !MentionsDate(paths[j])
    ensures FirstMention(paths) == k
  {
  }

  lemma MentionsAt(k: string, i: nat)
    requires i + 4 <= |k| && DateWordAt(k[i..])
    ensures MentionsDate(k)
    decreases i
  {
    if i > 0 {
      assert k[1..][i - 1..] == k[i..];
      MentionsAt(k[1..], i - 1);
    }
  }

  /** Without a `data` path, the first path that mentions a date is the date field. */
  lemma FallbackAt(paths: seq<string>, k: nat)
    requires "data" !in paths
    requires k < |paths| && MentionsDate(paths[k])
    requires forall j | 0 <= j < k :: !MentionsDate(paths[j])
    ensures FindDateField(paths) == Some(paths[k])
  {
    FirstMentionAt(paths, k);
  }

  /** Of five paths without `data`, the fourth is the date field when only it and the last may mention one. */
  lemma FallbackFourth(a: string, b: string, c: string, d: string, e: string)
    requires a != "data" && b != "data" && c != "data" && d != "data" && e != "data"
    requires !MentionsDate(a) && !MentionsDate(b) && !MentionsDate(c) && MentionsDate(d)
    ensures FindDateField([a, b, c, d, e]) == Some(d)
  {
    var paths := [a, b, c, d, e];
    assert "data" !in paths;
    FallbackAt(paths, 3);
  }

  /** `createdAt` has no `d` before its last three characters. */
  lemma CreatedAtNoDate()
    ensures !MentionsDate("createdAt")
  {
    NoDateStart("createdAt");
  }

  /** `updatedAt` holds `date` at index 2. */
  lemma UpdatedAtMentions()
    ensures MentionsDate("updatedAt")
  {
    MentionsAt("updatedAt", 2);
  }

  /**
   Without a `data` path the timestamps take over: `updatedAt` mentions
   `date`, while `createdAt` does not.
   */
  lemma TimestampFallback()
    ensures !MentionsDate("createdAt")
    ensures FindDateField(["_id", "cliente", "createdAt", "updatedAt", "__v"]) == Some("updatedAt")
  {
    NoDateStart("_id");
    NoDateStart("cliente");
    CreatedAtNoDate();
    UpdatedAtMentions();
    FallbackFourth("_id", "cliente", "createdAt", "updatedAt", "__v");
  }
}

=== FILE: header_normalizer.dfy ===
/**
 The column allow-list of the Excel import and `normalizeHeader`, which turns a
 spreadsheet column label into the name of a field of the generated schema.

 The label is trimmed, decomposed (NFD) and stripped of combining marks; every
 character other than an ASCII letter, digit or space is dropped; each run of
 whitespace becomes one `_`; the result is lower-cased; and `f_` is put in
 front of anything that does not then start with a lower-case letter.
 */
module HeaderNormalizer {
  import opened Js

  /** The only column labels the import keeps. */
  const ALLOWED_HEADERS: seq<string> := [
    "#",
    "CLIENTE",
    "DATA",
    "MODELLO",
    "TARGA",
    "REGIONE CARICO",
    "CARICO",
    "SCARICO",
    "NOTE",
    "PAGAMENTO",
    "AUTISTA CARICO",
    "AUTISTA SCARICO",
    "INDIRIZZO RITIRO",
    "n\U{00B0} FATTURA",
    "DEPOSITO"
  ]

  /** A character a generated field name may hold: `[a-z0-9_]`. */
  predicate IsFieldChar(c: char) {
    IsAsciiLower(c) || IsDigit(c) || c == '_'
  }

  /** `^[a-z][a-z0-9_]*$`: a bare identifier usable as a schema path. */
  ghost predicate IsFieldName(s: string) {
    |s| > 0 && IsAsciiLower(s[0]) && forall i | 0 <= i < |s| :: IsFieldChar(s[i])
  }

  /** `s.normalize("NFD")`, one character at a time. */
  function Nfd(rt: Runtime, s: string): string {
    if s == [] then [] else rt.decompose(s[0]) + Nfd(rt, s[1..])
  }

  /** The block U+0300..U+036F of combining diacritical marks. */
  predicate IsCombiningMark(c: char) {
    '\U{0300}' <= c <= '\U{036F}'
  }

  /** `s.replace(/[\u0300-\u036f]/g, "")` */
  function StripCombiningMarks(s: string): string {
    if s == [] then []
    else if IsCombiningMark(s[0]) then StripCombiningMarks(s[1..])
    else [s[0]] + StripCombiningMarks(s[1..])
  }

  /** The characters line 52 of the import keeps: `[a-zA-Z0-9 ]`. */
  predicate IsKeptChar(c: char) {
    IsAsciiLetter(c) || IsDigit(c) || c == ' '
  }

  /** `s.replace(/[^a-zA-Z0-9 ]/g, "")` */
  function KeepAlnumSpace(s: string): string {
    if s == [] then []
    else if IsKeptChar(s[0]) then [s[0]] + KeepAlnumSpace(s[1..])
    else KeepAlnumSpace(s[1..])
  }

  /** `s.replace(/\s+/g, "_")` */
  function CollapseWhitespace(s: string): string
    decreases |s|
  {
    if s == [] then []
    else if IsWhitespace(s[0]) then
      var rest := TrimStart(s);
      assert |rest| < |s| by { assert LeadingWhitespace(s) > 0; }
      "_" + CollapseWhitespace(rest)
    else [s[0]] + CollapseWhitespace(s[1..])
  }

  /** The label after every rewriting step but the `f_` prefix (lines 49-54). */
  function Clean(rt: Runtime, name: string): string {
    LowerAscii(CollapseWhitespace(KeepAlnumSpace(StripCombiningMarks(Nfd(rt, Trim(name))))))
  }

  /** Collapsing whitespace in `[a-zA-Z0-9 ]*` text leaves only `[a-zA-Z0-9_]`. */
  lemma {:induction false} CollapseChars(s: string)
    requires forall i | 0 <= i < |s| :: IsKeptChar(s[i])
    ensures forall i | 0 <= i < |CollapseWhitespace(s)| ::
              CollapseWhitespace(s)[i] == '_' || IsAsciiLetter(CollapseWhitespace(s)[i]) || IsDigit(CollapseWhitespace(s)[i])
    decreases |s|
  {
    if s != [] {
      if IsWhitespace(s[0]) {
        assert LeadingWhitespace(s) > 0;
        CollapseChars(TrimStart(s));
      } else {
        CollapseChars(s[1..]);
      }
    }
  }

  lemma {:induction false} KeepChars(s: string)
    ensures forall i | 0 <= i < |KeepAlnumSpace(s)| :: IsKeptChar(KeepAlnumSpace(s)[i])
  {
    if s != [] { KeepChars(s[1..]); }
  }

  lemma CleanChars(rt: Runtime, name: string)
    ensures forall i | 0 <= i < |Clean(rt, name)| :: IsFieldChar(Clean(rt, name)[i])
  {
    var m := StripCombiningMarks(Nfd(rt, Trim(name)));
    KeepChars(m);
    var c := CollapseWhitespace(KeepAlnumSpace(m));
    CollapseChars(KeepAlnumSpace(m));
    LowerAsciiPointwise(c);
  }

  /** `normalizeHeader(name)` for the string keys the import passes it. */
  function NormalizeHeader(rt: Runtime, name: string): (r: string)
    ensures name == "" ==> r == "field"
    ensures name != "" ==> IsFieldName(r)
    ensures name != "" ==> r == Clean(rt, name) || r == "f_" + Clean(rt, name)
    ensures name != "" ==> (r == Clean(rt, name) <==> |Clean(rt, name)| > 0 && IsAsciiLower(Clean(rt, name)[0]))
  {
    if name == "" then "field"
    else
      var s := Clean(rt, name);
      CleanChars(rt, name);
      if |s| > 0 && IsAsciiLower(s[0]) then s else "f_" + s
  }

  // ---------------------------------------------------------------------------
  // Properties of normalizeHeader
  // ---------------------------------------------------------------------------

  lemma {:induction false} StripKeepsNothing(s: string)
    requires forall i | 0 <= i < |s| :: !IsKeptChar(s[i])
    ensures KeepAlnumSpace(StripCombiningMarks(s)) == []
  {
    if s != [] { StripKeepsNothing(s[1..]); }
  }

  /**
   A label whose decomposed, trimmed text has no ASCII letter, digit or space
   normalizes to exactly `f_`.
   */
  lemma SymbolOnlyLabel(rt: Runtime, name: string)
    requires name != ""
    requires forall i | 0 <= i < |Nfd(rt, Trim(name))| :: !IsKeptChar(Nfd(rt, Trim(name))[i])
    ensures NormalizeHeader(rt, name) == "f_"
  {
    StripKeepsNothing(Nfd(rt, Trim(name)));
  }

  // ---------------------------------------------------------------------------
  // The allow-listed labels, step by step
  // ---------------------------------------------------------------------------

  /** `s` is made of ASCII letters and digits only. */
  predicate IsAlnumText(s: string) {
    s == [] || ((IsAsciiLetter(s[0]) || IsDigit(s[0])) && IsAlnumText(s[1..]))
  }

  /** Every rewriting step but lower-casing leaves ASCII letters and digits alone. */
  lemma {:induction false} AlnumTextFixed(rt: Runtime, s: string)
    requires DecomposesLatin1Symbols(rt)
    requires IsAlnumText(s)
    ensures Nfd(rt, s) == s && StripCombiningMarks(s) == s
    ensures KeepAlnumSpace(s) == s && CollapseWhitespace(s) == s
  {
    if s != [] {
      assert rt.decompose(s[0]) == [s[0]];
      AlnumTextFixed(rt, s[1..]);
    }
  }

  lemma {:induction false} NfdAppend(rt: Runtime, a: string, b: string)
    ensures Nfd(rt, a + b) == Nfd(rt, a) + Nfd(rt, b)
  {
    if a == [] {
      assert a + b == b;
    } else {
      ConsAppend(a, b);
      NfdAppend(rt, a[1..], b);
      Assoc(rt.decompose(a[0]), Nfd(rt, a[1..]), Nfd(rt, b));
    }
  }

  lemma {:induction false} StripAppend(a: string, b: string)
    ensures StripCombiningMarks(a + b) == StripCombiningMarks(a) + StripCombiningMarks(b)
  {
    if a == [] {
      assert a + b == b;
    } else {
      ConsAppend(a, b);
      StripAppend(a[1..], b);
      Assoc([a[0]], StripCombiningMarks(a[1..]), StripCombiningMarks(b));
    }
  }

  lemma {:induction false} KeepAppend(a: string, b: string)
    ensures KeepAlnumSpace(a + b) == KeepAlnumSpace(a) + KeepAlnumSpace(b)
  {
    if a == [] {
      assert a + b == b;
    } else {
      ConsAppend(a, b);
      KeepAppend(a[1..], b);
      Assoc([a[0]], KeepAlnumSpace(a[1..]), KeepAlnumSpace(b));
    }
  }

  lemma {:induction false} CollapseAfterWord(a: string, t: string)
    requires IsAlnumText(a)
    ensures CollapseWhitespace(a + t) == a + CollapseWhitespace(t)
  {
    if a == [] {
      assert a + t == t;
    } else {
      ConsAppend(a, t);
      CollapseCons(a[0], a[1..] + t);
      CollapseAfterWord(a[1..], t);
      ConsAppend(a, CollapseWhitespace(t));
    }
  }

  lemma CollapseCons(c: char, r: string)
    requires !IsWhitespace(c)
    ensures CollapseWhitespace([c] + r) == [c] + CollapseWhitespace(r)
  {
    var s := [c] + r;
    assert s[0] == c;
    assert s[1..] == r;
  }

  lemma CollapseAfterSpace(b: string)
    requires b == [] || !IsWhitespace(b[0])
    ensures CollapseWhitespace(" " + b) == "_" + CollapseWhitespace(b)
  {
    var s := " " + b;
    assert s[1..] == b;
    assert LeadingWhitespace(s) == 1;
  }

  /** How one separator character goes through the rewriting steps. */
  lemma SeparatorSteps(rt: Runtime, c: char)
    requires DecomposesLatin1Symbols(rt)
    requires c < '\U{00C0}'
    ensures Nfd(rt, [c]) == [c] && StripCombiningMarks([c]) == [c]
    ensures KeepAlnumSpace([c]) == if IsKeptChar(c) then [c] else []
  {
    assert rt.decompose(c) == [c];
    assert [c][1..] == [];
  }

  /** The text of a label before whitespace is collapsed: Nfd, marks and line 52. */
  lemma DecomposeJoined(rt: Runtime, a: string, c: char, b: string)
    requires DecomposesLatin1Symbols(rt)
    requires IsAlnumText(a) && IsAlnumText(b) && c < '\U{00C0}'
    ensures KeepAlnumSpace(StripCombiningMarks(Nfd(rt, a + [c] + b)))
            == a + (if IsKeptChar(c) then [c] else []) + b
  {
    AlnumTextFixed(rt, a);
    AlnumTextFixed(rt, b);
    SeparatorSteps(rt, c);
    NfdAppend(rt, a + [c], b);
    NfdAppend(rt, a, [c]);
    StripAppend(a + [c], b);
    StripAppend(a, [c]);
    KeepAppend(a + [c], b);
    KeepAppend(a, [c]);
  }

  /** A label with no whitespace at either end is not changed by trim. */
  lemma TrimJoined(a: string, sep: string, b: string)
    requires IsAlnumText(a) && IsAlnumText(b) && a != [] && b != []
    ensures Trim(a + sep + b) == a + sep + b
  {
    var s := a + sep + b;
    assert s[0] == a[0] && s[|s| - 1] == b[|b| - 1];
    assert IsAlnumText(b[|b| - 1..]) by { AlnumSuffix(b, |b| - 1); }
    TrimFixes(s);
  }

  lemma {:induction false} AlnumSuffix(s: string, k: nat)
    requires IsAlnumText(s) && k <= |s|
    ensures IsAlnumText(s[k..])
  {
    if k > 0 {
      assert s[1..][k - 1..] == s[k..];
      AlnumSuffix(s[1..], k - 1);
    }
  }

  /** Cleaning, once trim is known to change nothing and line 52 is known to leave `k`. */
  lemma CleanFromSteps(rt: Runtime, name: string, k: string)
    requires Trim(name) == name
    requires KeepAlnumSpace(StripCombiningMarks(Nfd(rt, name))) == k
    ensures Clean(rt, name) == LowerAscii(CollapseWhitespace(k))
  {
  }

  lemma CollapseSpaced(a: string, b: string)
    requires IsAlnumText(a) && IsAlnumText(b) && b != []
    ensures CollapseWhitespace(a + " " + b) == a + "_" + b
  {
    Assoc(a, " ", b);
    CollapseAfterWord(a, " " + b);
    CollapseAfterSpace(b);
    CollapseAfterWord(b, []);
    AppendEmpty(b);
    Assoc(a, "_", b);
  }

  lemma LowerJoined(a: string, b: string)
    ensures LowerAscii(a + "_" + b) == LowerAscii(a) + "_" + LowerAscii(b)
  {
    LowerAsciiAppend(a + "_", b);
    LowerAsciiAppend(a, "_");
  }

  /** `word word` cleans to `word_word`, lower-cased. */
  lemma CleanSpaced(rt: Runtime, a: string, b: string)
    requires DecomposesLatin1Symbols(rt)
    requires IsAlnumText(a) && IsAlnumText(b) && a != [] && b != []
    ensures Clean(rt, a + " " + b) == LowerAscii(a) + "_" + LowerAscii(b)
  {
    TrimJoined(a, " ", b);
    DecomposeJoined(rt, a, ' ', b);
    CleanFromSteps(rt, a + " " + b, a + " " + b);
    CollapseSpaced(a, b);
    LowerJoined(a, b);
  }

  /** Line 52 deletes a symbol written right before the space. */
  lemma KeepSymbolBeforeSpace(rt: Runtime, a: string, c: char, b: string)
    requires DecomposesLatin1Symbols(rt)
    requires IsAlnumText(a) && IsAlnumText(b)
    requires c < '\U{00C0}' && !IsKeptChar(c)
    ensures KeepAlnumSpace(StripCombiningMarks(Nfd(rt, a + [c] + (" " + b)))) == a + (" " + b)
  {
    var t := " " + b;
    NfdAppend(rt, a + [c], t);
    StripAppend(Nfd(rt, a + [c]), Nfd(rt, t));
    KeepAppend(StripCombiningMarks(Nfd(rt, a + [c])), StripCombiningMarks(Nfd(rt, t)));
    DecomposeJoined(rt, a, c, []);
    AppendEmpty(a + [c]);
    AppendEmpty(a);
    DecomposeJoined(rt, [], ' ', b);
    AppendEmpty([' ']);
  }

  /** A symbol right before the space is deleted: `n° FATTURA` cleans like `n FATTURA`. */
  lemma CleanSymbolBeforeSpace(rt: Runtime, a: string, c: char, b: string)
    requires DecomposesLatin1Symbols(rt)
    requires IsAlnumText(a) && IsAlnumText(b) && a != [] && b != []
    requires c < '\U{00C0}' && !IsKeptChar(c)
    ensures Clean(rt, a + [c] + " " + b) == LowerAscii(a) + "_" + LowerAscii(b)
  {
    var name := a + [c] + " " + b;
    Assoc(a + [c], " ", b);
    Assoc(a, [c], " ");
    TrimJoined(a, [c] + " ", b);
    KeepSymbolBeforeSpace(rt, a, c, b);
    Assoc(a, " ", b);
    CleanFromSteps(rt, name, a + " " + b);
    CollapseSpaced(a, b);
    LowerJoined(a, b);
  }

  lemma {:induction false} AlnumAppend(a: string, b: string)
    requires IsAlnumText(a) && IsAlnumText(b)
    ensures IsAlnumText(a + b)
  {
    if a == [] {
      assert a + b == b;
    } else {
      ConsAppend(a, b);
      AlnumAppend(a[1..], b);
    }
  }

  /** `word_word` cleans to `wordword`: `_` is not among the characters line 52 keeps. */
  lemma CleanUnderscored(rt: Runtime, a: string, b: string)
    requires DecomposesLatin1Symbols(rt)
    requires IsAlnumText(a) && IsAlnumText(b) && a != [] && b != []
    ensures Clean(rt, a + "_" + b) == LowerAscii(a + b)
  {
    TrimJoined(a, "_", b);
    DecomposeJoined(rt, a, '_', b);
    AppendEmpty(a);
    CleanFromSteps(rt, a + "_" + b, a + b);
    AlnumAppend(a, b);
    CollapseAfterWord(a + b, []);
    AppendEmpty(a + b);
    AppendEmpty(CollapseWhitespace([]));
  }

  /** A one-word label is lower-cased and nothing else. */
  lemma CleanWord(rt: Runtime, a: string)
    requires DecomposesLatin1Symbols(rt)
    requires IsAlnumText(a) && a != []
    ensures Clean(rt, a) == LowerAscii(a)
  {
    AlnumSuffix(a, |a| - 1);
    TrimFixes(a);
    AlnumTextFixed(rt, a);
    CleanFromSteps(rt, a, a);
  }

  /** `a` is a non-empty run of ASCII letters. */
  ghost predicate IsLetterWord(a: string) {
    a != [] && forall i | 0 <= i < |a| :: IsAsciiLetter(a[i])
  }

  /** `f` is `a` with its ASCII letters lower-cased. */
  ghost predicate LowersTo(a: string, f: string) {
    |a| == |f| && forall i | 0 <= i < |a| :: LowerChar(a[i]) == f[i]
  }

  lemma {:induction false} LetterWordAlnum(a: string)
    requires forall i | 0 <= i < |a| :: IsAsciiLetter(a[i])
    ensures IsAlnumText(a)
  {
    if a != [] { LetterWordAlnum(a[1..]); }
  }

  lemma LowersToLower(a: string, f: string)
    requires LowersTo(a, f)
    ensures LowerAscii(a) == f
  {
    LowerAsciiPointwise(a);
  }

  lemma WordField(rt: Runtime, a: string, f: string)
    requires DecomposesLatin1Symbols(rt)
    requires IsLetterWord(a) && LowersTo(a, f) && IsAsciiLower(f[0])
    ensures NormalizeHeader(rt, a) == f
  {
    LetterWordAlnum(a);
    LowersToLower(a, f);
    CleanWord(rt, a);
  }

  lemma SpacedField(rt: Runtime, header: string, a: string, fa: string, b: string, fb: string, f: string)
    requires DecomposesLatin1Symbols(rt)
    requires IsLetterWord(a) && LowersTo(a, fa) && IsAsciiLower(fa[0])
    requires IsLetterWord(b) && LowersTo(b, fb)
    requires header == a + " " + b && f == fa + "_" + fb
    ensures NormalizeHeader(rt, header) == f
  {
    LetterWordAlnum(a);
    LetterWordAlnum(b);
    LowersToLower(a, fa);
    LowersToLower(b, fb);
    CleanSpaced(rt, a, b);
  }

  lemma SymbolSpacedField(rt: Runtime, header: string, a: string, fa: string, c: char, b: string, fb: string, f: string)
    requires DecomposesLatin1Symbols(rt)
    requires IsLetterWord(a) && LowersTo(a, fa) && IsAsciiLower(fa[0])
    requires IsLetterWord(b) && LowersTo(b, fb)
    requires c < '\U{00C0}' && !IsKeptChar(c)
    requires header == a + [c] + " " + b && f == fa + "_" + fb
    ensures NormalizeHeader(rt, header) == f
  {
    LetterWordAlnum(a);
    LetterWordAlnum(b);
    LowersToLower(a, fa);
    LowersToLower(b, fb);
    CleanSymbolBeforeSpace(rt, a, c, b);
  }

  lemma UnderscoredField(rt: Runtime, header: string, a: string, b: string, f: string)
    requires DecomposesLatin1Symbols(rt)
    requires IsLetterWord(a) && IsLetterWord(b) && LowersTo(a + b, f) && IsAsciiLower(f[0])
    requires header == a + "_" + b
    ensures NormalizeHeader(rt, header) == f
  {
    LetterWordAlnum(a);
    LetterWordAlnum(b);
    LowersToLower(a + b, f);
    CleanUnderscored(rt, a, b);
  }

  lemma PoundField(rt: Runtime)
    requires DecomposesLatin1Symbols(rt)
    ensures NormalizeHeader(rt, "#") == "f_"
  {
    TrimFixes("#");
    SeparatorSteps(rt, '#');
    assert "#" == ['#'];
    SymbolOnlyLabel(rt, "#");
  }

  /** The field names the allow-listed labels produce. */
  function AllowedField(i: nat): string
    requires i < |ALLOWED_HEADERS|
  {
    [ "f_", "cliente", "data", "modello", "targa", "regione_carico", "carico", "scarico",
      "note", "pagamento", "autista_carico", "autista_scarico", "indirizzo_ritiro",
      "n_fattura", "deposito" ][i]
  }

  /** `CLIENTE` becomes `cliente`. */
  lemma ClienteHeader(rt: Runtime)
    requires DecomposesLatin1Symbols(rt)
    ensures NormalizeHeader(rt, ALLOWED_HEADERS[1]) == AllowedField(1)
  {
    assert ALLOWED_HEADERS[1] == "CLIENTE";
    assert AllowedField(1) == "cliente";
    WordField(rt, "CLIENTE", "cliente");
  }

  /** `DATA` becomes `data`. */
  lemma DataHeader(rt: Runtime)
    requires DecomposesLatin1Symbols(rt)
    ensures NormalizeHeader(rt, ALLOWED_HEADERS[2]) == AllowedField(2)
  {
    assert ALLOWED_HEADERS[2] == "DATA";
    assert AllowedField(2) == "data";
    WordField(rt, "DATA", "data");
  }

  /** `MODELLO` becomes `modello`. */
  lemma ModelloHeader(rt: Runtime)
    requires DecomposesLatin1Symbols(rt)
    ensures NormalizeHeader(rt, ALLOWED_HEADERS[3]) == AllowedField(3)
  {
    assert ALLOWED_HEADERS[3] == "MODELLO";
    assert AllowedField(3) == "modello";
    WordField(rt, "MODELLO", "modello");
  }

  /** `TARGA` becomes `targa`. */
  lemma TargaHeader(rt: Runtime)
    requires DecomposesLatin1Symbols(rt)
    ensures NormalizeHeader(rt, ALLOWED_HEADERS[4]) == AllowedField(4)
  {
    assert ALLOWED_HEADERS[4] == "TARGA";
    assert AllowedField(4) == "targa";
    WordField(rt, "TARGA", "targa");
  }

  /** `REGIONE CARICO` becomes `regione_carico`. */
  lemma RegioneCaricoHeader(rt: Runtime)
    requires DecomposesLatin1Symbols(rt)
    ensures NormalizeHeader(rt, ALLOWED_HEADERS[5]) == AllowedField(5)
  {
    assert ALLOWED_HEADERS[5] == "REGIONE CARICO";
    assert AllowedField(5) == "regione_carico";
    SpacedField(rt, "REGIONE CARICO", "REGIONE", "regione", "CARICO", "carico", "regione_carico");
  }

  /** `CARICO` becomes `carico`. */
  lemma CaricoHeader(rt: Runtime)
    requires DecomposesLatin1Symbols(rt)
    ensures NormalizeHeader(rt, ALLOWED_HEADERS[6]) == AllowedField(6)
  {
    assert ALLOWED_HEADERS[6] == "CARICO";
    assert AllowedField(6) == "carico";
    WordField(rt, "CARICO", "carico");
  }

  /** `SCARICO` becomes `scarico`. */
  lemma ScaricoHeader(rt: Runtime)
    requires DecomposesLatin1Symbols(rt)
    ensures NormalizeHeader(rt, ALLOWED_HEADERS[7]) == AllowedField(7)
  {
    assert ALLOWED_HEADERS[7] == "SCARICO";
    assert AllowedField(7) == "scarico";
    WordField(rt, "SCARICO", "scarico");
  }

  /** `NOTE` becomes `note`. */
  lemma NoteHeader(rt: Runtime)
    requires DecomposesLatin1Symbols(rt)
    ensures NormalizeHeader(rt, ALLOWED_HEADERS[8]) == AllowedField(8)
  {
    assert ALLOWED_HEADERS[8] == "NOTE";
    assert AllowedField(8) == "note";
    WordField(rt, "NOTE", "note");
  }

  /** `PAGAMENTO` becomes `pagamento`. */
  lemma PagamentoHeader(rt: Runtime)
    requires DecomposesLatin1Symbols(rt)
    ensures NormalizeHeader(rt, ALLOWED_HEADERS[9]) == AllowedField(9)
  {
    assert ALLOWED_HEADERS[9] == "PAGAMENTO";
    assert AllowedField(9) == "pagamento";
    WordField(rt, "PAGAMENTO", "pagamento");
  }

  /** `AUTISTA CARICO` becomes `autista_carico`. */
  lemma AutistaCaricoHeader(rt: Runtime)
    requires DecomposesLatin1Symbols(rt)
    ensures NormalizeHeader(rt, ALLOWED_HEADERS[10]) == AllowedField(10)
  {
    assert ALLOWED_HEADERS[10] == "AUTISTA CARICO";
    assert AllowedField(10) == "autista_carico";
    SpacedField(rt, "AUTISTA CARICO", "AUTISTA", "autista", "CARICO", "carico", "autista_carico");
  }

  /** `AUTISTA SCARICO` becomes `autista_scarico`. */
  lemma AutistaScaricoHeader(rt: Runtime)
    requires DecomposesLatin1Symbols(rt)
    ensures NormalizeHeader(rt, ALLOWED_HEADERS[11]) == AllowedField(11)
  {
    assert ALLOWED_HEADERS[11] == "AUTISTA SCARICO";
    assert AllowedField(11) == "autista_scarico";
    SpacedField(rt, "AUTISTA SCARICO", "AUTISTA", "autista", "SCARICO", "scarico", "autista_scarico");
  }

  /** `INDIRIZZO RITIRO` becomes `indirizzo_ritiro`. */
  lemma IndirizzoRitiroHeader(rt: Runtime)
    requires DecomposesLatin1Symbols(rt)
    ensures NormalizeHeader(rt, ALLOWED_HEADERS[12]) == AllowedField(12)
  {
    assert ALLOWED_HEADERS[12] == "INDIRIZZO RITIRO";
    assert AllowedField(12) == "indirizzo_ritiro";
    SpacedField(rt, "INDIRIZZO RITIRO", "INDIRIZZO", "indirizzo", "RITIRO", "ritiro", "indirizzo_ritiro");
  }

  /** `DEPOSITO` becomes `deposito`. */
  lemma DepositoHeader(rt: Runtime)
    requires DecomposesLatin1Symbols(rt)
    ensures NormalizeHeader(rt, ALLOWED_HEADERS[14]) == AllowedField(14)
  {
    assert ALLOWED_HEADERS[14] == "DEPOSITO";
    assert AllowedField(14) == "deposito";
    WordField(rt, "DEPOSITO", "deposito");
  }

  lemma InvoiceNumberField(rt: Runtime)
    requires DecomposesLatin1Symbols(rt)
    ensures NormalizeHeader(rt, "n\U{00B0} FATTURA") == "n_fattura"
  {
    SymbolSpacedField(rt, "n\U{00B0} FATTURA", "n", "n", '\U{00B0}', "FATTURA", "fattura", "n_fattura");
  }

  /** `#` becomes `f_`. */
  lemma PoundHeader(rt: Runtime)
    requires DecomposesLatin1Symbols(rt)
    ensures NormalizeHeader(rt, ALLOWED_HEADERS[0]) == AllowedField(0)
  {
    assert ALLOWED_HEADERS[0] == "#";
    assert AllowedField(0) == "f_";
    PoundField(rt);
  }

  /** `n° FATTURA` becomes `n_fattura`. */
  lemma InvoiceNumberHeader(rt: Runtime)
    requires DecomposesLatin1Symbols(rt)
    ensures NormalizeHeader(rt, ALLOWED_HEADERS[13]) == AllowedField(13)
  {
    assert ALLOWED_HEADERS[13] == "n\U{00B0} FATTURA";
    assert AllowedField(13) == "n_fattura";
    InvoiceNumberField(rt);
  }

  lemma AllowedHeaderField(rt: Runtime, i: nat)
    requires DecomposesLatin1Symbols(rt)
    requires i < |ALLOWED_HEADERS|
    ensures NormalizeHeader(rt, ALLOWED_HEADERS[i]) == AllowedField(i)
  {
    match i
    case 0 => PoundHeader(rt);
    case 1 => ClienteHeader(rt);
    case 2 => DataHeader(rt);
    case 3 => ModelloHeader(rt);
    case 4 => TargaHeader(rt);
    case 5 => RegioneCaricoHeader(rt);
    case 6 => CaricoHeader(rt);
    case 7 => ScaricoHeader(rt);
    case 8 => NoteHeader(rt);
    case 9 => PagamentoHeader(rt);
    case 10 => AutistaCaricoHeader(rt);
    case 11 => AutistaScaricoHeader(rt);
    case 12 => IndirizzoRitiroHeader(rt);
    case 13 => InvoiceNumberHeader(rt);
    case 14 => DepositoHeader(rt);
  }

  lemma AllowedFieldsDistinct()
    ensures forall i, j | 0 <= i < j < |ALLOWED_HEADERS| :: AllowedField(i) != AllowedField(j)
  {
  }

  /**
   The allow-listed labels normalize to the field names of the generated
   schema, and no two of them to the same name.
   */
  lemma AllowedHeaderFields(rt: Runtime)
    requires DecomposesLatin1Symbols(rt)
    ensures forall i | 0 <= i < |ALLOWED_HEADERS| :: NormalizeHeader(rt, ALLOWED_HEADERS[i]) == AllowedField(i)
    ensures forall i, j | 0 <= i < j < |ALLOWED_HEADERS| ::
              NormalizeHeader(rt, ALLOWED_HEADERS[i]) != NormalizeHeader(rt, ALLOWED_HEADERS[j])
  {
    forall i | 0 <= i < |ALLOWED_HEADERS|
      ensures NormalizeHeader(rt, ALLOWED_HEADERS[i]) == AllowedField(i)
    {
      AllowedHeaderField(rt, i);
    }
    AllowedFieldsDistinct();
  }

  /** `"n_fattura"` loses its underscore: normalizeHeader is not idempotent. */
  lemma NotIdempotent(rt: Runtime)
    requires DecomposesLatin1Symbols(rt)
    ensures NormalizeHeader(rt, "n\U{00B0} FATTURA") == "n_fattura"
    ensures NormalizeHeader(rt, NormalizeHeader(rt, "n\U{00B0} FATTURA")) == "nfattura"
  {
    InvoiceNumberField(rt);
    UnderscoreDropped(rt);
  }

  lemma UnderscoreDropped(rt: Runtime)
    requires DecomposesLatin1Symbols(rt)
    ensures NormalizeHeader(rt, "n_fattura") == "nfattura"
  {
    assert IsLetterWord("n") && IsLetterWord("fattura");
    assert "n" + "fattura" == "nfattura";
    assert LowersTo("nfattura", "nfattura");
    UnderscoredField(rt, "n_fattura", "n", "fattura", "nfattura");
  }
}

=== FILE: import_run.dfy ===
/**
 The order of the steps of the Excel import (`run`), as a function from what
 the process finds around it to the steps it takes and the state it leaves.
 The file system, the environment and the database are values; reading the
 workbook is the `sheet` the environment holds.
 */
module ImportRun {
  import opened Js
  import opened HeaderNormalizer
  import opened TypeInference
  import opened SchemaSynthesis
  import opened RecordTransform

  /** What the import finds when it starts. */
  datatype Env = Env(
    excelExists: bool,        // fs.existsSync(EXCEL_FILE)
    sheet: seq<Row>,          // sheet_to_json of the first sheet, with defval ""
    mongoUri: Option<string>, // process.env.MONGO_URI
    connects: bool            // whether mongoose.connect resolves
  )

  /** The state outside the process that the import changes. */
  datatype World = World(modelFile: Option<string>, collection: seq<Record>)

  /** An effect on the world, in the order the import performs them. */
  datatype Step =
    | WriteModel(code: string)     // fs.writeFileSync(MODEL_FILE, modelCode)
    | Connect                      // mongoose.connect
    | Clear                        // Trasporto.deleteMany({})
    | Insert(docs: seq<Record>)    // Trasporto.insertMany(docs)
    | Disconnect                   // mongoose.disconnect

  /** The steps taken, the world they leave and the process exit code. */
  datatype Outcome = Outcome(steps: seq<Step>, world: World, exitCode: int)

  /** What one step does to the world. */
  function Apply(w: World, s: Step): World {
    match s
    case WriteModel(code) => w.(modelFile := Some(code))
    case Clear => w.(collection := [])
    case Insert(docs) => w.(collection := w.collection + docs)
    case _ => w
  }

  function Replay(w: World, steps: seq<Step>): World
    decreases |steps|
  {
    if steps == [] then w else Replay(Apply(w, steps[0]), steps[1..])
  }

  /** `MONGO_URI` counts as set only when it is a non-empty string. */
  predicate UriSet(env: Env) {
    env.mongoUri.Some? && Truthy(Str(env.mongoUri.value))
  }

  /** The descriptors the import derives from the sheet. */
  function Columns(rt: Runtime, sheet: seq<Row>): seq<Column>
    requires sheet != []
  {
    BuildColumns(rt, sheet, SelectHeaders(Keys(sheet[0])))
  }

  /** `run()` together with its `.catch`, which exits with code 1. */
  function Run(rt: Runtime, env: Env, w: World): Outcome {
    if !env.excelExists || env.sheet == [] then Outcome([], w, 1)
    else
      var cols := Columns(rt, env.sheet);
      var written := [WriteModel(ModelCode(cols))];
      if !UriSet(env) then Outcome(written, Replay(w, written), 1)
      else if !env.connects then Outcome(written + [Connect], Replay(w, written + [Connect]), 1)
      else
        var steps := written + [Connect, Clear, Insert(ToRecords(rt, cols, env.sheet)), Disconnect];
        Outcome(steps, Replay(w, steps), 0)
  }

  /**
   The recorded steps happen in the order of the source: the model file is
   written first, the collection is cleared only after it and after the
   connection, and the insert comes right after the clear.
   */
  ghost predicate InSourceOrder(steps: seq<Step>) {
    && (steps != [] ==> steps[0].WriteModel?)
    && (forall i | 0 <= i < |steps| && steps[i].Clear? :: i > 0)
    && (forall i | 0 <= i < |steps| && steps[i].Clear? :: exists j | 0 <= j < i :: steps[j].Connect?)
    && (forall i | 0 <= i < |steps| && steps[i].Insert? :: i > 0 && steps[i - 1].Clear?)
  }

  /**
   The state the import leaves, written out directly: untouched after an
   early stop, only the model file replaced when the database is out of
   reach, and model file and collection both replaced after a complete run.
   */
  function Expected(rt: Runtime, env: Env, w: World): World {
    if !env.excelExists || env.sheet == [] then w
    else
      var cols := Columns(rt, env.sheet);
      if UriSet(env) && env.connects then World(Some(ModelCode(cols)), ToRecords(rt, cols, env.sheet))
      else w.(modelFile := Some(ModelCode(cols)))
  }

  lemma ReplayOne(w: World, a: Step)
    ensures Replay(w, [a]) == Apply(w, a)
  {
    assert [a][1..] == [];
  }

  lemma ReplayTwo(w: World, a: Step, b: Step)
    ensures Replay(w, [a] + [b]) == Apply(Apply(w, a), b)
  {
    assert ([a] + [b])[1..] == [b];
    ReplayOne(Apply(w, a), b);
  }

  lemma ReplayCons(w: World, a: Step, rest: seq<Step>)
    ensures Replay(w, [a] + rest) == Replay(Apply(w, a), rest)
  {
    assert ([a] + rest)[1..] == rest;
  }

  lemma ReplayFive(w: World, a: Step, b: Step, c: Step, d: Step, e: Step)
    ensures Replay(w, [a] + [b, c, d, e]) == Apply(Apply(Apply(Apply(Apply(w, a), b), c), d), e)
  {
    var w1 := Apply(w, a);
    var w2 := Apply(w1, b);
    var w3 := Apply(w2, c);
    var w4 := Apply(w3, d);
    ReplayCons(w, a, [b, c, d, e]);
    assert [b, c, d, e] == [b] + [c, d, e];
    ReplayCons(w1, b, [c, d, e]);
    assert [c, d, e] == [c] + [d, e];
    ReplayCons(w2, c, [d, e]);
    ReplayTwo(w3, d, e);
  }

  /** Replaying the recorded steps gives the state described by `Expected`. */
  lemma RunWorld(rt: Runtime, env: Env, w: World)
    ensures Run(rt, env, w).world == Expected(rt, env, w)
  {
    if env.excelExists && env.sheet != [] {
      var code := WriteModel(ModelCode(Columns(rt, env.sheet)));
      if !UriSet(env) {
        ReplayOne(w, code);
      } else if !env.connects {
        ReplayTwo(w, code, Connect);
      } else {
        CompleteRunWorld(rt, env, w);
      }
    }
  }

  /** A complete run leaves the generated model file and exactly the converted rows. */
  lemma CompleteRunWorld(rt: Runtime, env: Env, w: World)
    requires env.excelExists && env.sheet != [] && UriSet(env) && env.connects
    ensures Run(rt, env, w).world == Expected(rt, env, w)
  {
    var cols := Columns(rt, env.sheet);
    var docs := ToRecords(rt, cols, env.sheet);
    ReplayFive(w, WriteModel(ModelCode(cols)), Connect, Clear, Insert(docs), Disconnect);
  }

  /**
   A missing workbook or a sheet without rows stops the import before the
   model file is written: nothing changes and the exit code is 1.
   */
  lemma AbortBeforeModel(rt: Runtime, env: Env, w: World)
    requires !env.excelExists || env.sheet == []
    ensures Run(rt, env, w).steps == [] && Run(rt, env, w).exitCode == 1
    ensures Run(rt, env, w).world == w
  {
  }

  /**
   Once the sheet has rows, the model file is overwritten with the generated
   schema whether or not `MONGO_URI` is set; without it the import stops
   there, with exit code 1 and the collection untouched.
   */
  lemma ModelBeforeUriCheck(rt: Runtime, env: Env, w: World)
    requires env.excelExists && env.sheet != []
    ensures Run(rt, env, w).world.modelFile == Some(ModelCode(Columns(rt, env.sheet)))
    ensures !UriSet(env) ==> Run(rt, env, w).exitCode == 1 && Run(rt, env, w).world.collection == w.collection
  {
    RunWorld(rt, env, w);
  }

  /**
   A complete import replaces the collection: afterwards it holds exactly the
   records of the sheet's rows, one per row in row order, and nothing of what
   it held before.
   */
  lemma SuccessReplacesCollection(rt: Runtime, env: Env, w: World)
    requires env.excelExists && env.sheet != [] && UriSet(env) && env.connects
    ensures var o := Run(rt, env, w);
      && o.exitCode == 0
      && o.world.collection == ToRecords(rt, Columns(rt, env.sheet), env.sheet)
      && |o.world.collection| == |env.sheet|
  {
    RunWorld(rt, env, w);
  }

  /** Every outcome keeps the source's order of effects. */
  lemma RunInSourceOrder(rt: Runtime, env: Env, w: World)
    ensures InSourceOrder(Run(rt, env, w).steps)
  {
    if env.excelExists && env.sheet != [] {
      var cols := Columns(rt, env.sheet);
      FullRunInOrder(ModelCode(cols), ToRecords(rt, cols, env.sheet));
    }
  }

  lemma FullRunInOrder(code: string, docs: seq<Record>)
    ensures InSourceOrder([WriteModel(code)] + [Connect, Clear, Insert(docs), Disconnect])
  {
    var steps := [WriteModel(code)] + [Connect, Clear, Insert(docs), Disconnect];
    assert steps == [WriteModel(code), Connect, Clear, Insert(docs), Disconnect];
    assert steps[1].Connect?;
  }

  /** The exit code is 0 exactly when every precondition of the import held. */
  lemma ExitCodeZero(rt: Runtime, env: Env, w: World)
    ensures Run(rt, env, w).exitCode == 0 <==> env.excelExists && env.sheet != [] && UriSet(env) && env.connects
    ensures Run(rt, env, w).exitCode in {0, 1}
  {
  }

  /** The collection changes only through a clear. */
  lemma CollectionNeedsClear(rt: Runtime, env: Env, w: World)
    ensures Run(rt, env, w).world.collection != w.collection ==> Clear in Run(rt, env, w).steps
  {
    RunWorld(rt, env, w);
    var steps := Run(rt, env, w).steps;
    if env.excelExists && env.sheet != [] && UriSet(env) && env.connects {
      assert steps[2] == Clear;
    }
  }

  /** Importing the same workbook twice leaves the same state as importing it once. */
  lemma RunIdempotent(rt: Runtime, env: Env, w: World)
    ensures Run(rt, env, Run(rt, env, w).world).world == Run(rt, env, w).world
  {
    RunWorld(rt, env, w);
    RunWorld(rt, env, Run(rt, env, w).world);
  }

  /**
   End to end, for any sheet whose first row has distinct labels: the model
   file read back gives the descriptors, and the collection holds one record
   per row with, under each field, a value of the shape the field's type
   promises.
   */
  lemma ImportConsistent(rt: Runtime, env: Env, w: World)
    requires DecomposesLatin1Symbols(rt)
    requires env.excelExists && env.sheet != [] && UriSet(env) && env.connects
    requires Distinct(Keys(env.sheet[0]))
    ensures var o := Run(rt, env, w);
      var cols := Columns(rt, env.sheet);
      && o.world.modelFile == Some(ModelCode(cols))
      && ParseModel(ModelCode(cols)) == Some(cols)
      && o.world.collection == ToRecords(rt, cols, env.sheet)
      && forall k, i | 0 <= k < |env.sheet| && 0 <= i < |cols| ::
           HasShape(cols[i].ty, ToRecords(rt, cols, env.sheet)[k][cols[i].field])
  {
    var cols := Columns(rt, env.sheet);
    AllowedColumns(rt, env.sheet);
    ModelCodeRoundTrip(cols);
    RunWorld(rt, env, w);
    RecordsHaveShape(rt, cols, env.sheet);
  }

  /** The descriptors of a first row with distinct labels name distinct, well formed fields. */
  lemma AllowedColumns(rt: Runtime, sheet: seq<Row>)
    requires DecomposesLatin1Symbols(rt)
    requires sheet != [] && Distinct(Keys(sheet[0]))
    ensures var cols := Columns(rt, sheet);
      && (forall i | 0 <= i < |cols| :: IsFieldName(cols[i].field) && '\n' !in cols[i].header)
      && (forall i, j | 0 <= i < j < |cols| :: cols[i].field != cols[j].field)
  {
    var headers := SelectHeaders(Keys(sheet[0]));
    forall i | 0 <= i < |headers| ensures headers[i] in ALLOWED_HEADERS {
      assert headers[i] in headers;
    }
    AllowedColumnsDistinct(rt, sheet, headers);
  }

  lemma RecordsHaveShape(rt: Runtime, cols: seq<Column>, rows: seq<Row>)
    requires forall i, j | 0 <= i < j < |cols| :: cols[i].field != cols[j].field
    ensures forall k, i | 0 <= k < |rows| && 0 <= i < |cols| ::
      HasShape(cols[i].ty, ToRecords(rt, cols, rows)[k][cols[i].field])
  {
    forall k | 0 <= k < |rows|
      ensures forall i | 0 <= i < |cols| :: HasShape(cols[i].ty, ToRecords(rt, cols, rows)[k][cols[i].field])
    {
      RecordContents(rt, cols, rows[k]);
    }
  }
}

=== FILE: js.dfy ===
/**
 The slice of JavaScript value semantics that the Trasporti backend relies on:
 truthiness, `String(v)`, `Number(v)`, `String.prototype.trim`, the `\s` class,
 `parseInt(s, 10)` and `new Date(v)`.

 Built-ins whose exact behaviour is large or host dependent (number parsing and
 printing, date parsing, time zones, Unicode decomposition) are not
 re-implemented: they are the fields of a `Runtime` value that every operation
 takes as a parameter, so each property proved here holds for every runtime.
 */
module Js {

  datatype Option<+T> = None | Some(value: T) {
    function GetOr(default: T): T {
      match this
      case Some(v) => v
      case None => default
    }
  }

  /** A JavaScript number. `-0` is not told apart from `+0`. */
  datatype JsNumber = NaN | Finite(value: real) | Infinite(negative: bool)

  /** The values that reach the code: spreadsheet cells, JSON body members, dates. */
  datatype JsValue =
    | Undefined
    | Null
    | Bool(b: bool)
    | Num(n: JsNumber)
    | Str(s: string)
    | DateObj(time: int)   // a valid Date; its time value in milliseconds
    | Obj(text: string)    // an array or plain object of a JSON body, by its string form

  /** The host built-ins that the model leaves uninterpreted. */
  datatype Runtime = Runtime(
    stringToNumber: string -> JsNumber,  // Number(s) for a string s
    numberToString: JsNumber -> string,  // String(n) for a number n
    parseDate: string -> Option<int>,    // Date.parse(s); None stands for NaN
    dateToString: int -> string,         // String(new Date(t))
    decompose: char -> string,           // canonical (NFD) decomposition of one character
    endOfDay: int -> int                 // d.setHours(23, 59, 59, 999) in the local time zone
  )

  /** Unicode assigns no canonical decomposition to any character below U+00C0. */
  ghost predicate DecomposesLatin1Symbols(rt: Runtime) {
    forall c: char {:trigger rt.decompose(c)} :: c < '\U{00C0}' ==> rt.decompose(c) == [c]
  }

  // ---------------------------------------------------------------------------
  // Truthiness and conversions
  // ---------------------------------------------------------------------------

  predicate NumberTruthy(n: JsNumber) {
    match n
    case NaN => false
    case Finite(x) => x != 0.0
    case Infinite(_) => true
  }

  /** `!!v` */
  predicate Truthy(v: JsValue) {
    match v
    case Undefined => false
    case Null => false
    case Bool(b) => b
    case Num(n) => NumberTruthy(n)
    case Str(s) => s != ""
    case DateObj(_) => true
    case Obj(_) => true
  }

  /** `String(v)` */
  function ToString(rt: Runtime, v: JsValue): string {
    match v
    case Undefined => "undefined"
    case Null => "null"
    case Bool(b) => if b then "true" else "false"
    case Num(n) => rt.numberToString(n)
    case Str(s) => s
    case DateObj(t) => rt.dateToString(t)
    case Obj(text) => text
  }

  /** `Number(v)` */
  function ToNumber(rt: Runtime, v: JsValue): JsNumber {
    match v
    case Undefined => NaN
    case Null => Finite(0.0)
    case Bool(b) => Finite(if b then 1.0 else 0.0)
    case Num(n) => n
    case Str(s) => rt.stringToNumber(s)
    case DateObj(t) => Finite(t as real)
    case Obj(text) => rt.stringToNumber(text)
  }

  /** Largest absolute time value a Date can hold (TimeClip). */
  const MAX_TIME: int := 8640000000000000

  /** Truncation toward zero of a real, as ToIntegerOrInfinity does. */
  function Truncate(x: real): int {
    if x >= 0.0 then x.Floor else -((-x).Floor)
  }

  /**
   The time value of `new Date(v)`, None for an Invalid Date. A string, and an
   array or object through its string form, is parsed; a Date is copied; any
   other value is converted to a number and truncated.
   */
  function NewDate(rt: Runtime, v: JsValue): (r: Option<int>)
    ensures v.Str? || v.Obj? ==> r == rt.parseDate(ToString(rt, v))
    ensures v == Undefined ==> r == None
    ensures v == Null || v == Bool(false) ==> r == Some(0)
    ensures v == Bool(true) ==> r == Some(1)
    ensures !v.Str? && !v.Obj? && !v.DateObj? && r.Some? ==> -MAX_TIME <= r.value <= MAX_TIME
    ensures v.DateObj? ==> r == Some(v.time)
    ensures v.Num? && !v.n.Finite? ==> r == None
    ensures v.Num? && v.n.Finite? ==> (r.Some? <==> -MAX_TIME <= Truncate(v.n.value) <= MAX_TIME)
    ensures v.Num? && v.n.Finite? && r.Some? ==> r.value == Truncate(v.n.value)
  {
    match v
    case Str(s) => rt.parseDate(s)
    case Obj(text) => rt.parseDate(text)
    case DateObj(t) => Some(t)
    case _ =>
      match ToNumber(rt, v)
      case Finite(x) =>
        var t := Truncate(x);
        if -MAX_TIME <= t <= MAX_TIME then Some(t) else None
      case _ => None
  }

  // ---------------------------------------------------------------------------
  // Whitespace and trim
  // ---------------------------------------------------------------------------

  /** The WhiteSpace and LineTerminator code points: what `trim` strips and `\s` matches. */
  predicate IsWhitespace(c: char) {
    || c == '\t' || c == '\n' || c == '\U{000B}' || c == '\U{000C}' || c == '\r'
    || c == ' ' || c == '\U{00A0}' || c == '\U{1680}'
    || ('\U{2000}' <= c <= '\U{200A}')
    || c == '\U{2028}' || c == '\U{2029}' || c == '\U{202F}' || c == '\U{205F}'
    || c == '\U{3000}' || c == '\U{FEFF}'
  }

  ghost predicate AllWhitespace(s: string) {
    forall i | 0 <= i < |s| :: IsWhitespace(s[i])
  }

  /** Length of the whitespace run that starts `s`. */
  function LeadingWhitespace(s: string): (k: nat)
    ensures k <= |s|
    ensures forall i | 0 <= i < k :: IsWhitespace(s[i])
    ensures k == |s| || !IsWhitespace(s[k])
  {
    if |s| > 0 && IsWhitespace(s[0]) then
      1 + LeadingWhitespace(s[1..])
    else 0
  }

  /** Index where the whitespace run that ends `s` begins. */
  function TrailingWhitespaceStart(s: string): (k: nat)
    ensures k <= |s|
    ensures forall i | k <= i < |s| :: IsWhitespace(s[i])
    ensures k == 0 || !IsWhitespace(s[k - 1])
  {
    if |s| > 0 && IsWhitespace(s[|s| - 1]) then
      var k := TrailingWhitespaceStart(s[..|s| - 1]);
      assert forall i | k <= i < |s| - 1 :: s[i] == s[..|s| - 1][i];
      k
    else |s|
  }

  function TrimStart(s: string): string {
    s[LeadingWhitespace(s)..]
  }

  /** `s.trim()` */
  function Trim(s: string): (r: string)
    ensures r == [] || (!IsWhitespace(r[0]) && !IsWhitespace(r[|r| - 1]))
  {
    var t := TrimStart(s);
    t[..TrailingWhitespaceStart(t)]
  }

  /** `trim` removes a whitespace prefix and a whitespace suffix and nothing else. */
  lemma TrimInfix(s: string)
    ensures exists i, j :: 0 <= i <= j <= |s| && Trim(s) == s[i..j]
                          && AllWhitespace(s[..i]) && AllWhitespace(s[j..])
  {
    var i := LeadingWhitespace(s);
    var t := s[i..];
    var j := TrailingWhitespaceStart(t);
    assert t[..j] == s[i..i + j];
    assert s[i + j..] == t[j..];
  }

  /** A string that neither starts nor ends with whitespace is its own trim. */
  lemma TrimFixes(s: string)
    requires s == [] || (!IsWhitespace(s[0]) && !IsWhitespace(s[|s| - 1]))
    ensures Trim(s) == s
  {
    if s != [] {
      assert LeadingWhitespace(s) == 0;
      assert TrailingWhitespaceStart(s) == |s|;
    }
  }

  /** A string of whitespace only trims to the empty string. */
  lemma TrimBlank(s: string)
    requires AllWhitespace(s)
    ensures Trim(s) == ""
  {
    assert LeadingWhitespace(s) == |s|;
  }

  /** Trimming surrounding whitespace away a second time changes nothing. */
  lemma TrimIdempotent(s: string)
    ensures Trim(Trim(s)) == Trim(s)
  {
    var t := Trim(s);
    assert LeadingWhitespace(t) == 0;
    assert TrailingWhitespaceStart(t) == |t|;
  }

  // ---------------------------------------------------------------------------
  // Sequence facts the string proofs share
  // ---------------------------------------------------------------------------

  /** A non-empty string is its first character followed by the rest. */
  lemma ConsAppend<T>(a: seq<T>, u: seq<T>)
    requires a != []
    ensures a + u == [a[0]] + (a[1..] + u)
  {
  }

  lemma AppendEmpty<T>(x: seq<T>)
    ensures x + [] == x && [] + x == x
  {
  }

  lemma Assoc<T>(x: seq<T>, y: seq<T>, z: seq<T>)
    ensures x + y + z == x + (y + z)
  {
  }

  // ---------------------------------------------------------------------------
  // ASCII classes and case
  // ---------------------------------------------------------------------------

  predicate IsAsciiUpper(c: char) { 'A' <= c <= 'Z' }
  predicate IsAsciiLower(c: char) { 'a' <= c <= 'z' }
  predicate IsAsciiLetter(c: char) { IsAsciiUpper(c) || IsAsciiLower(c) }
  predicate IsDigit(c: char) { '0' <= c <= '9' }

  /** `toLowerCase` restricted to ASCII; other characters are left alone. */
  function LowerChar(c: char): (r: char)
    ensures IsAsciiUpper(c) ==> IsAsciiLower(r)
    ensures !IsAsciiUpper(c) ==> r == c
  {
    if IsAsciiUpper(c) then (c as int + 32) as char else c
  }

  function LowerAscii(s: string): string {
    if s == [] then [] else [LowerChar(s[0])] + LowerAscii(s[1..])
  }

  lemma {:induction false} LowerAsciiPointwise(s: string)
    ensures |LowerAscii(s)| == |s|
    ensures forall i | 0 <= i < |s| :: LowerAscii(s)[i] == LowerChar(s[i])
  {
    if s != [] { LowerAsciiPointwise(s[1..]); }
  }

  lemma {:induction false} LowerAsciiAppend(a: string, b: string)
    ensures LowerAscii(a + b) == LowerAscii(a) + LowerAscii(b)
  {
    if a == [] {
      assert a + b == b;
    } else {
      ConsAppend(a, b);
      LowerAsciiAppend(a[1..], b);
      ConsAppend(a, LowerAscii(b));
    }
  }

  // ---------------------------------------------------------------------------
  // parseInt(s, 10)
  // ---------------------------------------------------------------------------

  /** Length of the run of decimal digits that starts `s`. */
  function DigitPrefix(s: string): (k: nat)
    ensures k <= |s|
    ensures forall i | 0 <= i < k :: IsDigit(s[i])
    ensures k == |s| || !IsDigit(s[k])
  {
    if |s| > 0 && IsDigit(s[0]) then 1 + DigitPrefix(s[1..]) else 0
  }

  function DigitValue(c: char): nat
    requires IsDigit(c)
  {
    c as int - '0' as int
  }

  /** The value of a string of decimal digits, most significant first. */
  function DigitsValue(d: string): nat
    requires forall i | 0 <= i < |d| :: IsDigit(d[i])
  {
    if d == [] then 0 else 10 * DigitsValue(d[..|d| - 1]) + DigitValue(d[|d| - 1])
  }

  /** `parseInt(s, 10)`; None stands for NaN. */
  function ParseInt(s: string): (r: Option<int>)
  {
    var t := TrimStart(s);
    var negative := |t| > 0 && t[0] == '-';
    var body := if |t| > 0 && (t[0] == '-' || t[0] == '+') then t[1..] else t;
    var k := DigitPrefix(body);
    if k == 0 then None
    else
      var n: int := DigitsValue(body[..k]);
      Some(if negative then -n else n)
  }

  function DigitChar(d: nat): (c: char)
    requires d < 10
    ensures IsDigit(c) && DigitValue(c) == d
  {
    ('0' as int + d) as char
  }

  /** The decimal rendering of a natural number, as `String(n)` gives it. */
  function Decimal(n: nat): (s: string)
    ensures |s| > 0
    ensures forall i | 0 <= i < |s| :: IsDigit(s[i])
  {
    if n < 10 then [DigitChar(n)] else Decimal(n / 10) + [DigitChar(n % 10)]
  }

  lemma {:induction false} DecimalValue(n: nat)
    ensures DigitsValue(Decimal(n)) == n
  {
    if n >= 10 {
      var s := Decimal(n);
      assert s[..|s| - 1] == Decimal(n / 10);
      DecimalValue(n / 10);
    }
  }

  /** `parseInt` reads back the decimal rendering of any integer. */
  lemma ParseIntDecimal(n: int)
    ensures ParseInt(if n < 0 then "-" + Decimal(-n) else Decimal(n)) == Some(n)
  {
    var m: nat := if n < 0 then -n else n;
    var d := Decimal(m);
    var s := if n < 0 then "-" + d else d;
    assert LeadingWhitespace(s) == 0;
    assert TrimStart(s) == s;
    var body := if n < 0 then s[1..] else s;
    assert body == d;
    assert DigitPrefix(d) == |d|;
    assert d[..|d|] == d;
    DecimalValue(m);
  }
}

=== FILE: list_filter.dfy ===
/**
 The filter object that `GET /api/trasporti` builds from its query string
 before counting and listing records: case-insensitive regular-expression
 conditions on a few fields, one `$or` array shared by the driver search and
 the free-text search, and a date range on the schema's date field.

 The filter is data; how the database evaluates it is not modelled.
 */
module ListFilter {
  import opened Js
  import opened DateField

  /**
   The query string: parameter name to value, an absent name standing for
   `undefined`. Repeated and bracketed parameters, which the query parser
   turns into arrays and objects, are not modelled.
   */
  type Query = map<string, string>

  /** `req.query[name]` is truthy. */
  predicate Given(q: Query, name: string) {
    name in q && q[name] != ""
  }

  /** A condition on one field. */
  datatype Cond =
    | Regex(pattern: string)                 // { $regex: pattern, $options: "i" }
    | Range(gte: Option<int>, lte: Option<int>) // {} with the optional $gte and $lte dates

  /** `{ [path]: cond }`, one alternative of `$or`. */
  datatype Clause = Clause(path: string, cond: Cond)

  /** The filter: its conditions by field, and its `$or` array when it has one. */
  datatype Filter = Filter(fields: map<string, Cond>, anyOf: Option<seq<Clause>>)

  /** The fields the free-text search looks in, `modello` listed twice. */
  const TEXT_FIELDS: seq<string> :=
    ["cliente", "modello", "modello", "targa", "carico", "scarico", "note", "indirizzo_ritiro"]

  /** `req.query.q ? String(req.query.q).trim() : null`, kept only when truthy. */
  function SearchText(q: Query): (r: Option<string>)
    ensures r.Some? <==> Given(q, "q") && Trim(q["q"]) != ""
    ensures r.Some? ==> r.value == Trim(q["q"])
  {
    if !Given(q, "q") then None
    else
      var t := Trim(q["q"]);
      if t == "" then None else Some(t)
  }

  /** The two `$or` alternatives of the driver search. */
  function DriverClauses(name: string): seq<Clause> {
    [Clause("autista_carico", Regex(name)), Clause("autista_scarico", Regex(name))]
  }

  /** One text-search clause per listed field that is a schema path, in list order. */
  function TextClauses(text: string, paths: seq<string>, fields: seq<string>): (cs: seq<Clause>)
    ensures |cs| <= |fields|
    ensures forall i | 0 <= i < |cs| :: cs[i].path in paths && cs[i].path in fields && cs[i].cond == Regex(text)
  {
    if fields == [] then []
    else
      var rest := TextClauses(text, paths, fields[1..]);
      if fields[0] in paths then [Clause(fields[0], Regex(text))] + rest else rest
  }

  /** The date range of `data_from` and `data_to`; `to` is moved to the end of its day. */
  function DateRange(rt: Runtime, q: Query): Cond {
    var from := if Given(q, "data_from") then NewDate(rt, Str(q["data_from"])) else None;
    var to := if Given(q, "data_to") then NewDate(rt, Str(q["data_to"])) else None;
    Range(from, if to.Some? then Some(rt.endOfDay(to.value)) else None)
  }

  /** The conditions of `cliente`, `targa` and `regione`, before the date range. */
  function NamedConditions(q: Query): map<string, Cond> {
    var f1: map<string, Cond> := if Given(q, "cliente") then map["cliente" := Regex(q["cliente"])] else map[];
    var f2 := if Given(q, "targa") then f1["targa" := Regex(q["targa"])] else f1;
    if Given(q, "regione") then f2["regione_carico" := Regex(q["regione"])] else f2
  }

  /** `filters[dateField] = ...` when a date bound is given and the schema has a date field. */
  function AddDateRange(rt: Runtime, q: Query, paths: seq<string>, f: map<string, Cond>): map<string, Cond> {
    match FindDateField(paths)
    case Some(df) => if Given(q, "data_from") || Given(q, "data_to") then f[df := DateRange(rt, q)] else f
    case None => f
  }

  /** The filter built by lines 82-121, for a schema with the given paths. */
  function BuildFilter(rt: Runtime, q: Query, paths: seq<string>): Filter {
    var or1 := if Given(q, "autista") then Some(DriverClauses(q["autista"])) else None;
    var or2 :=
      match SearchText(q)
      case Some(t) => Some(or1.GetOr([]) + TextClauses(t, paths, TEXT_FIELDS))
      case None => or1;
    Filter(AddDateRange(rt, q, paths, NamedConditions(q)), or2)
  }

  lemma NamedConditionsKeys(q: Query)
    ensures var f := NamedConditions(q);
      && (forall k | k in f :: k in {"cliente", "targa", "regione_carico"})
      && ("cliente" in f <==> Given(q, "cliente"))
      && ("targa" in f <==> Given(q, "targa"))
      && ("regione_carico" in f <==> Given(q, "regione"))
      && (Given(q, "cliente") ==> f["cliente"] == Regex(q["cliente"]))
      && (Given(q, "targa") ==> f["targa"] == Regex(q["targa"]))
      && (Given(q, "regione") ==> f["regione_carico"] == Regex(q["regione"]))
  {
  }

  /** The date range never lands on one of the three named fields. */
  lemma DateFieldNotNamed(paths: seq<string>)
    ensures FindDateField(paths).Some? ==> FindDateField(paths).value !in {"cliente", "targa", "regione_carico"}
  {
    FilterKeysAreNotDates();
  }

  /**
   `cliente`, `targa` and `regione` each add a case-insensitive pattern on
   their field exactly when given, with the parameter's text as the pattern;
   `regione` filters the `regione_carico` field.
   */
  lemma RegexConditions(rt: Runtime, q: Query, paths: seq<string>)
    ensures var f := BuildFilter(rt, q, paths).fields;
      && ("cliente" in f <==> Given(q, "cliente"))
      && ("targa" in f <==> Given(q, "targa"))
      && ("regione_carico" in f <==> Given(q, "regione"))
      && (Given(q, "cliente") ==> f["cliente"] == Regex(q["cliente"]))
      && (Given(q, "targa") ==> f["targa"] == Regex(q["targa"]))
      && (Given(q, "regione") ==> f["regione_carico"] == Regex(q["regione"]))
  {
    NamedConditionsKeys(q);
    DateFieldNotNamed(paths);
    var base := NamedConditions(q);
    var f := AddDateRange(rt, q, paths, base);
    assert forall k | k in {"cliente", "targa", "regione_carico"} :: (k in f <==> k in base) && (k in f ==> f[k] == base[k]);
  }

  /**
   The filter constrains no other field than those three and the date field,
   and the date field exactly when a date bound was given and the schema has
   a date field.
   */
  lemma DateKey(rt: Runtime, q: Query, paths: seq<string>)
    ensures var f := BuildFilter(rt, q, paths).fields;
      var df := FindDateField(paths);
      && (forall k | k in f :: k in {"cliente", "targa", "regione_carico"} || (df.Some? && k == df.value))
      && (df.Some? ==> (df.value in f <==> Given(q, "data_from") || Given(q, "data_to")))
  {
    NamedConditionsKeys(q);
    DateFieldNotNamed(paths);
  }

  /**
   `$gte` is set exactly for a `data_from` that parses as a date, and `$lte`
   exactly for a `data_to` that does, moved to the last millisecond of its
   day; with neither valid the range is the empty object.
   */
  lemma DateBounds(rt: Runtime, q: Query, paths: seq<string>)
    requires FindDateField(paths).Some?
    requires Given(q, "data_from") || Given(q, "data_to")
    ensures var r := BuildFilter(rt, q, paths).fields[FindDateField(paths).value];
      && r.Range?
      && (r.gte.Some? <==> Given(q, "data_from") && rt.parseDate(q["data_from"]).Some?)
      && (r.gte.Some? ==> r.gte == rt.parseDate(q["data_from"]))
      && (r.lte.Some? <==> Given(q, "data_to") && rt.parseDate(q["data_to"]).Some?)
      && (r.lte.Some? ==> r.lte.value == rt.endOfDay(rt.parseDate(q["data_to"]).value))
  {
    DateKey(rt, q, paths);
  }

  /**
   The filter has a `$or` exactly when a driver or a non-blank text is
   searched; it holds the two driver clauses first, then the text clauses.
   */
  lemma AnyOfClauses(rt: Runtime, q: Query, paths: seq<string>)
    ensures var f := BuildFilter(rt, q, paths);
      && (f.anyOf.Some? <==> Given(q, "autista") || SearchText(q).Some?)
      && (f.anyOf.Some? ==>
            f.anyOf.value ==
              (if Given(q, "autista") then DriverClauses(q["autista"]) else []) +
              (if SearchText(q).Some? then TextClauses(SearchText(q).value, paths, TEXT_FIELDS) else []))
  {
    var f := BuildFilter(rt, q, paths);
    if Given(q, "autista") && SearchText(q).None? {
      assert f.anyOf.value == DriverClauses(q["autista"]) + [];
    }
  }

  /** A search text of only whitespace searches nothing. */
  lemma BlankSearchIgnored(q: Query)
    requires Given(q, "q")
    requires forall i | 0 <= i < |q["q"]| :: IsWhitespace(q["q"][i])
    ensures SearchText(q) == None
  {
    TrimBlank(q["q"]);
  }

  /** How many times `f` is listed. */
  function Occurrences(fields: seq<string>, f: string): nat {
    if fields == [] then 0 else (if fields[0] == f then 1 else 0) + Occurrences(fields[1..], f)
  }

  /** How many clauses are on path `f`. */
  function ClausesOn(cs: seq<Clause>, f: string): nat {
    if cs == [] then 0 else (if cs[0].path == f then 1 else 0) + ClausesOn(cs[1..], f)
  }

  lemma {:induction false} ClausesOnAppend(a: seq<Clause>, b: seq<Clause>, f: string)
    ensures ClausesOn(a + b, f) == ClausesOn(a, f) + ClausesOn(b, f)
  {
    if a == [] {
      assert a + b == b;
    } else {
      assert (a + b)[1..] == a[1..] + b;
      ClausesOnAppend(a[1..], b, f);
    }
  }

  /** The text search has as many clauses on a field as the field is listed, if the schema has it, and none otherwise. */
  lemma {:induction false} TextClausesCount(text: string, paths: seq<string>, fields: seq<string>, f: string)
    ensures ClausesOn(TextClauses(text, paths, fields), f) == if f in paths then Occurrences(fields, f) else 0
  {
    if fields != [] {
      TextClausesCount(text, paths, fields[1..], f);
      var rest := TextClauses(text, paths, fields[1..]);
      if fields[0] in paths {
        ClausesOnAppend([Clause(fields[0], Regex(text))], rest, f);
      }
    }
  }

  lemma ModelloListedTwice()
    ensures Occurrences(TEXT_FIELDS, "modello") == 2
  {
    var t := TEXT_FIELDS;
    assert t[1..][1..][1..] == ["targa", "carico", "scarico", "note", "indirizzo_ritiro"];
    assert Occurrences(t[1..][1..][1..], "modello") == 0 by {
      var r := t[1..][1..][1..];
      assert forall i | 0 <= i < |r| :: r[i] != "modello";
      NoOccurrence(r, "modello");
    }
  }

  lemma {:induction false} NoOccurrence(fields: seq<string>, f: string)
    requires forall i | 0 <= i < |fields| :: fields[i] != f
    ensures Occurrences(fields, f) == 0
  {
    if fields != [] {
      assert forall i | 0 <= i < |fields| - 1 :: fields[1..][i] == fields[i + 1];
      NoOccurrence(fields[1..], f);
    }
  }

  /**
   Because `modello` is listed twice, a text search on a schema with that
   field puts two identical clauses on it into `$or`.
   */
  lemma ModelloTwice(rt: Runtime, q: Query, paths: seq<string>)
    requires SearchText(q).Some? && "modello" in paths
    ensures ClausesOn(BuildFilter(rt, q, paths).anyOf.value, "modello") == 2
  {
    AnyOfClauses(rt, q, paths);
    var text := SearchText(q).value;
    var driver := if Given(q, "autista") then DriverClauses(q["autista"]) else [];
    var texts := TextClauses(text, paths, TEXT_FIELDS);
    ClausesOnAppend(driver, texts, "modello");
    TextClausesCount(text, paths, TEXT_FIELDS, "modello");
    ModelloListedTwice();
    if Given(q, "autista") {
      assert driver[1..][1..] == [];
    }
  }
}

=== FILE: pagination.dfy ===
/**
 Paging of `GET /api/trasporti`: the `page` and `limit` query parameters are
 parsed with `parseInt` and clamped, the number of records to skip is derived
 from them, and the response metadata reports the number of pages.

 A parameter that does not parse is `NaN`, and `Math.max`, `Math.min`,
 arithmetic and `Math.ceil` all carry `NaN` along; `None` stands for it here.
 */
module Pagination {
  import opened Js

  /** `req.query.x || d`: an absent or empty parameter takes its default text. */
  function OrDefault(q: Option<string>, d: string): string {
    if q.Some? && q.value != "" then q.value else d
  }

  const MAX_LIMIT: int := 100

  /** `Math.max(1, parseInt(req.query.page || "1", 10))` */
  function Page(q: Option<string>): (r: Option<int>)
    ensures r.Some? <==> ParseInt(OrDefault(q, "1")).Some?
    ensures r.Some? ==> r.value >= 1
  {
    match ParseInt(OrDefault(q, "1"))
    case None => None
    case Some(n) => Some(if n < 1 then 1 else n)
  }

  /** `Math.min(100, Math.max(1, parseInt(req.query.limit || "50", 10)))` */
  function Limit(q: Option<string>): (r: Option<int>)
    ensures r.Some? <==> ParseInt(OrDefault(q, "50")).Some?
    ensures r.Some? ==> 1 <= r.value <= MAX_LIMIT
  {
    match ParseInt(OrDefault(q, "50"))
    case None => None
    case Some(n) => Some(if n < 1 then 1 else if n > MAX_LIMIT then MAX_LIMIT else n)
  }

  /** `(page - 1) * limit` */
  function Skip(page: Option<int>, limit: Option<int>): (r: Option<int>)
    requires page.Some? ==> page.value >= 1
    requires limit.Some? ==> limit.value >= 1
    ensures r.Some? <==> page.Some? && limit.Some?
    ensures r.Some? ==> r.value >= 0
  {
    if page.Some? && limit.Some? then Some((page.value - 1) * limit.value) else None
  }

  /** `Math.ceil(total / limit)`, on the integer counters. */
  function PageCount(total: nat, limit: Option<int>): (r: Option<int>)
    requires limit.Some? ==> limit.value >= 1
    ensures r.Some? <==> limit.Some?
    ensures r.Some? ==> r.value >= 0
  {
    match limit
    case None => None
    case Some(l) => Some((total + l - 1) / l)
  }

  /** `meta` of the list response, together with the number of records skipped. */
  datatype Meta = Meta(total: nat, page: Option<int>, limit: Option<int>, skip: Option<int>, pages: Option<int>)

  function ListMeta(total: nat, pageQ: Option<string>, limitQ: Option<string>): Meta {
    var page := Page(pageQ);
    var limit := Limit(limitQ);
    Meta(total, page, limit, Skip(page, limit), PageCount(total, limit))
  }

  /**
   `pages` is the ceiling of `total / limit`: no pages for no records, and
   otherwise just enough pages of `limit` records to hold them all.
   */
  lemma PageCountIsCeiling(total: nat, l: int)
    requires l >= 1
    ensures var pages := PageCount(total, Some(l)).value;
      && (total == 0 ==> pages == 0)
      && (total > 0 ==> (pages - 1) * l < total <= pages * l)
  {
    var pages := (total + l - 1) / l;
    var r := (total + l - 1) % l;
    assert total + l - 1 == pages * l + r;
    assert (pages - 1) * l == pages * l - l;
    if total == 0 {
      assert pages * l <= l - 1 < l;
      if pages >= 1 { MulMonotone(1, pages, l); }
      assert pages == 0;
    }
  }

  lemma MulMonotone(a: int, b: int, l: int)
    requires a <= b && l >= 0
    ensures a * l <= b * l
  {
    assert b * l - a * l == (b - a) * l;
  }

  /**
   A page has records on it exactly when its number is at most `pages`: the
   records it skips are fewer than `total` for pages `1..pages` and all of
   them beyond.
   */
  lemma SkipWithinTotal(total: nat, p: int, l: int)
    requires p >= 1 && l >= 1
    ensures var skip := Skip(Some(p), Some(l)).value;
      skip < total <==> p <= PageCount(total, Some(l)).value
  {
    var pages := PageCount(total, Some(l)).value;
    PageCountIsCeiling(total, l);
    if p <= pages {
      MulMonotone(p - 1, pages - 1, l);
    } else {
      MulMonotone(pages, p - 1, l);
    }
  }

  lemma Digits50()
    ensures Decimal(50) == "50" && Decimal(1) == "1"
  {
  }

  /** Without the parameters (or with them empty) the list shows page 1 of 50 records. */
  lemma Defaults(total: nat)
    ensures ListMeta(total, None, None).page == Some(1)
    ensures ListMeta(total, Some(""), Some("")).page == Some(1)
    ensures ListMeta(total, None, None).limit == Some(50)
    ensures ListMeta(total, Some(""), Some("")).limit == Some(50)
    ensures ListMeta(total, None, None).skip == Some(0)
  {
    Digits50();
    ParseIntDecimal(1);
    ParseIntDecimal(50);
  }

  /** A page number of 1 or more is taken as it is written. */
  lemma PageRoundTrip(n: nat)
    requires n >= 1
    ensures Page(Some(Decimal(n))) == Some(n)
  {
    ParseIntDecimal(n);
  }

  /** A limit of 1 to 100 is taken as written; a larger one is cut to 100, and 0 or less is raised to 1. */
  lemma LimitClamp(n: int)
    ensures var text := if n < 0 then "-" + Decimal(-n) else Decimal(n);
      Limit(Some(text)) == Some(if n < 1 then 1 else if n > MAX_LIMIT then MAX_LIMIT else n)
  {
    ParseIntDecimal(n);
    var text := if n < 0 then "-" + Decimal(-n) else Decimal(n);
    assert text != "";
  }

  /** `page=0` shows the first page. */
  lemma ZeroPage()
    ensures Page(Some("0")) == Some(1)
  {
    ParseIntDecimal(0);
    assert Decimal(0) == "0";
  }

  /** A page number of 0 or less shows the first page. */
  lemma PageFloor(n: nat)
    ensures Page(Some("-" + Decimal(n))) == Some(1)
  {
    var m: int := -(n as int);
    ParseIntDecimal(m);
    if n == 0 {
      ParseIntDecimal(0);
      assert ParseInt("-" + Decimal(0)) == Some(0) by {
        var s := "-" + Decimal(0);
        assert Decimal(0) == "0";
        assert TrimStart(s) == s;
      }
    }
  }

  /**
   A non-numeric `page` is `NaN` and so is everything derived from it: the
   skip becomes `NaN` while the limit and the page count are unaffected.
   */
  lemma NonNumericPage(total: nat, s: string, limitQ: Option<string>)
    requires s != "" && ParseInt(s) == None
    ensures ListMeta(total, Some(s), limitQ).page == None
    ensures ListMeta(total, Some(s), limitQ).skip == None
    ensures ListMeta(total, Some(s), limitQ).pages == PageCount(total, Limit(limitQ))
  {
  }

  /** A non-numeric `limit` makes the skip and the page count `NaN`. */
  lemma NonNumericLimit(total: nat, pageQ: Option<string>, s: string)
    requires s != "" && ParseInt(s) == None
    ensures ListMeta(total, pageQ, Some(s)).limit == None
    ensures ListMeta(total, pageQ, Some(s)).skip == None
    ensures ListMeta(total, pageQ, Some(s)).pages == None
  {
  }
}

=== FILE: record_transform.dfy ===
/**
 The row-to-record transform of the Excel import: for every row of the sheet,
 an object that holds, under each descriptor's field, the row's cell converted
 according to the descriptor's type.
 */
module RecordTransform {
  import opened Js
  import opened TypeInference
  import opened SchemaSynthesis

  /** What a record holds under one field. */
  datatype FieldValue =
    | DateValue(time: int)    // new Date(d)
    | NullValue               // null, for a cell the date parser rejects
    | NumberValue(n: JsNumber)
    | TextValue(s: string)

  /** A plain object built by the transform. The order of its keys is not modelled. */
  type Record = map<string, FieldValue>

  /** `Date.parse(String(val))`, then `null` or `new Date(d)`. The cell is not trimmed. */
  function CoerceDate(rt: Runtime, v: JsValue): (r: FieldValue)
    ensures r.DateValue? || r.NullValue?
  {
    match rt.parseDate(ToString(rt, v))
    case None => NullValue
    case Some(d) => DateValue(d)
  }

  /** `Number(val) || 0` */
  function CoerceNumber(rt: Runtime, v: JsValue): (r: JsNumber)
    ensures !r.NaN?
    ensures r == ToNumber(rt, v) || r == Finite(0.0)
  {
    var n := ToNumber(rt, v);
    if NumberTruthy(n) then n else Finite(0.0)
  }

  /** The value stored for a cell under a column of type `ty`. */
  function Coerce(rt: Runtime, ty: FieldType, v: JsValue): FieldValue {
    match ty
    case DateType => CoerceDate(rt, v)
    case NumberType => NumberValue(CoerceNumber(rt, v))
    case StringType => TextValue(ToString(rt, v))
  }

  /** The shape a value of a column of type `ty` always has. */
  predicate HasShape(ty: FieldType, x: FieldValue) {
    match ty
    case DateType => x.DateValue? || x.NullValue?
    case NumberType => x.NumberValue? && !x.n.NaN?
    case StringType => x.TextValue?
  }

  lemma CoerceShape(rt: Runtime, ty: FieldType, v: JsValue)
    ensures HasShape(ty, Coerce(rt, ty, v))
  {
  }

  /**
   A number column keeps exactly the truthy numbers: `NaN`, `0` and every
   cell that does not convert become `0`, and converting a stored number again
   leaves it as it is.
   */
  lemma CoerceNumberFallback(rt: Runtime, v: JsValue)
    ensures CoerceNumber(rt, v) == ToNumber(rt, v) <==> NumberTruthy(ToNumber(rt, v)) || ToNumber(rt, v) == Finite(0.0)
    ensures CoerceNumber(rt, Num(CoerceNumber(rt, v))) == CoerceNumber(rt, v)
  {
  }

  /**
   A date column stores `null` exactly for the cells whose string form the
   date parser rejects, and otherwise the parsed time.
   */
  lemma CoerceDateParse(rt: Runtime, v: JsValue)
    ensures CoerceDate(rt, v) == NullValue <==> rt.parseDate(ToString(rt, v)) == None
    ensures forall t :: CoerceDate(rt, v) == DateValue(t) <==> rt.parseDate(ToString(rt, v)) == Some(t)
  {
  }

  /**
   For a string cell without surrounding whitespace, the value stored under a
   date column is a date exactly when the type inference counted the cell as
   a date.
   */
  lemma CoerceDateAgreesWithInference(rt: Runtime, s: string)
    requires s != [] && !IsWhitespace(s[0]) && !IsWhitespace(s[|s| - 1])
    ensures CoerceDate(rt, Str(s)).DateValue? <==> ParsesAsDate(rt, Str(s))
  {
    TrimFixes(s);
  }

  /** The fields a set of descriptors writes. */
  function Fields(cols: seq<Column>): set<string> {
    set i | 0 <= i < |cols| :: cols[i].field
  }

  /** `for (const f of fields) obj[f.field] = ...`, starting from `acc`. */
  function Fill(rt: Runtime, cols: seq<Column>, row: Row, acc: Record): (r: Record)
    ensures r.Keys == acc.Keys + Fields(cols)
  {
    if cols == [] then acc
    else
      var c := cols[0];
      var r := Fill(rt, cols[1..], row, acc[c.field := Coerce(rt, c.ty, Get(row, c.header))]);
      assert Fields(cols) == {c.field} + Fields(cols[1..]) by {
        forall x | x in Fields(cols) ensures x in {c.field} + Fields(cols[1..]) {
          var i :| 0 <= i < |cols| && cols[i].field == x;
          if i > 0 { assert cols[1..][i - 1] == cols[i]; }
        }
        forall x | x in Fields(cols[1..]) ensures x in Fields(cols) {
          var i :| 0 <= i < |cols[1..]| && cols[1..][i].field == x;
          assert cols[i + 1] == cols[1..][i];
        }
      }
      r
  }

  /**
   The record built from one row: keyed by exactly the descriptors' fields,
   each holding the cell of the last descriptor that writes it, converted by
   that descriptor's type.
   */
  function ToRecord(rt: Runtime, cols: seq<Column>, row: Row): (r: Record)
    ensures r.Keys == Fields(cols)
    ensures forall i | 0 <= i < |cols| && LastWriter(cols, i) ::
      r[cols[i].field] == Coerce(rt, cols[i].ty, Get(row, cols[i].header))
  {
    assert forall i | 0 <= i < |cols| && LastWriter(cols, i) ::
      Fill(rt, cols, row, map[])[cols[i].field] == Coerce(rt, cols[i].ty, Get(row, cols[i].header))
    by {
      forall i | 0 <= i < |cols| && LastWriter(cols, i)
        ensures Fill(rt, cols, row, map[])[cols[i].field] == Coerce(rt, cols[i].ty, Get(row, cols[i].header))
      {
        LastWriterWins(rt, cols, row, map[], i);
      }
    }
    Fill(rt, cols, row, map[])
  }

  /** No later descriptor writes the field of descriptor `i`. */
  predicate LastWriter(cols: seq<Column>, i: nat)
    requires i < |cols|
  {
    forall j | i < j < |cols| :: cols[j].field != cols[i].field
  }

  /** `rows.map(r => ...)`: one record per row, each with exactly the descriptors' fields. */
  function ToRecords(rt: Runtime, cols: seq<Column>, rows: seq<Row>): (docs: seq<Record>)
    ensures |docs| == |rows|
    ensures forall i | 0 <= i < |docs| :: docs[i].Keys == Fields(cols)
    ensures forall i | 0 <= i < |docs| :: docs[i] == ToRecord(rt, cols, rows[i])
  {
    seq(|rows|, i requires 0 <= i < |rows| => ToRecord(rt, cols, rows[i]))
  }

  /** A key no descriptor writes keeps the value it had before the loop. */
  lemma {:induction false} FillUntouched(rt: Runtime, cols: seq<Column>, row: Row, acc: Record, k: string)
    requires forall j | 0 <= j < |cols| :: cols[j].field != k
    requires k in acc
    ensures Fill(rt, cols, row, acc)[k] == acc[k]
  {
    if cols != [] {
      var c := cols[0];
      var acc' := acc[c.field := Coerce(rt, c.ty, Get(row, c.header))];
      forall j | 0 <= j < |cols| - 1 ensures cols[1..][j].field != k {
        assert cols[1..][j] == cols[j + 1];
      }
      FillUntouched(rt, cols[1..], row, acc', k);
    }
  }

  /**
   The last descriptor that writes a field decides its value: whatever the
   earlier ones stored there is overwritten.
   */
  lemma {:induction false} LastWriterWins(rt: Runtime, cols: seq<Column>, row: Row, acc: Record, i: nat)
    requires i < |cols|
    requires forall j | i < j < |cols| :: cols[j].field != cols[i].field
    ensures Fill(rt, cols, row, acc)[cols[i].field] == Coerce(rt, cols[i].ty, Get(row, cols[i].header))
  {
    var c := cols[0];
    var acc' := acc[c.field := Coerce(rt, c.ty, Get(row, c.header))];
    if i == 0 {
      forall j | 0 <= j < |cols| - 1 ensures cols[1..][j].field != c.field {
        assert cols[1..][j] == cols[j + 1];
      }
      FillUntouched(rt, cols[1..], row, acc', c.field);
    } else {
      forall j | i - 1 < j < |cols| - 1 ensures cols[1..][j].field != cols[1..][i - 1].field {
        assert cols[1..][j] == cols[j + 1];
      }
      LastWriterWins(rt, cols[1..], row, acc', i - 1);
    }
  }

  /**
   With distinct fields, each record holds under every descriptor's field the
   row's cell under that descriptor's label, converted by its type, and so
   of the shape the type promises.
   */
  lemma RecordContents(rt: Runtime, cols: seq<Column>, row: Row)
    requires forall i, j | 0 <= i < j < |cols| :: cols[i].field != cols[j].field
    ensures forall i | 0 <= i < |cols| ::
      && ToRecord(rt, cols, row)[cols[i].field] == Coerce(rt, cols[i].ty, Get(row, cols[i].header))
      && HasShape(cols[i].ty, ToRecord(rt, cols, row)[cols[i].field])
  {
    forall i | 0 <= i < |cols|
      ensures ToRecord(rt, cols, row)[cols[i].field] == Coerce(rt, cols[i].ty, Get(row, cols[i].header))
    {
      LastWriterWins(rt, cols, row, map[], i);
    }
    forall i | 0 <= i < |cols| ensures HasShape(cols[i].ty, ToRecord(rt, cols, row)[cols[i].field]) {
      CoerceShape(rt, cols[i].ty, Get(row, cols[i].header));
    }
  }
}

=== FILE: schema_synthesis.dfy ===
/**
 From the first sheet of the workbook to the generated Mongoose schema:
 the allow-listed columns of the first row are kept in their order, each
 becomes a `{ header, field, type }` descriptor whose type is inferred from at
 most the first 200 rows, and each descriptor becomes one line of the model
 file `models/Trasporto.js`.
 */
module SchemaSynthesis {
  import opened Js
  import opened HeaderNormalizer
  import opened TypeInference

  // ---------------------------------------------------------------------------
  // Rows and headers
  // ---------------------------------------------------------------------------

  /** One row of `sheet_to_json`: its (label, cell) entries in `Object.keys` order. */
  type Row = seq<(string, JsValue)>

  /** `Object.keys(row)` */
  function Keys(row: Row): seq<string> {
    seq(|row|, i requires 0 <= i < |row| => row[i].0)
  }

  /** `row[h]`: the cell under label `h`, `undefined` when the row has no such label. */
  function Get(row: Row, h: string): JsValue {
    if row == [] then Undefined
    else if row[0].0 == h then row[0].1
    else Get(row[1..], h)
  }

  predicate Distinct(s: seq<string>) {
    forall i, j | 0 <= i < j < |s| :: s[i] != s[j]
  }

  /** `a` is `b` with some elements left out, the rest in their original order. */
  ghost predicate IsSubsequence(a: seq<string>, b: seq<string>)
    decreases |b|
  {
    if a == [] then true
    else if b == [] then false
    else (a[0] == b[0] && IsSubsequence(a[1..], b[1..])) || IsSubsequence(a, b[1..])
  }

  /** `Object.keys(rows[0]).filter(h => ALLOWED_HEADERS.includes(h))` */
  function SelectHeaders(keys: seq<string>): (hs: seq<string>)
    ensures forall h :: h in hs <==> h in keys && h in ALLOWED_HEADERS
    ensures IsSubsequence(hs, keys)
    ensures Distinct(keys) ==> Distinct(hs)
  {
    if keys == [] then []
    else
      var rest := SelectHeaders(keys[1..]);
      assert keys == [keys[0]] + keys[1..];
      if keys[0] in ALLOWED_HEADERS then
        var hs := [keys[0]] + rest;
        assert hs[1..] == rest;
        assert Distinct(keys) ==> keys[0] !in keys[1..];
        hs
      else rest
  }

  /** A label of the allow-list survives selection exactly when the first row has it. */
  lemma {:induction false} SelectHeadersKeepsAllowed(keys: seq<string>)
    requires forall i | 0 <= i < |keys| :: keys[i] in ALLOWED_HEADERS
    ensures SelectHeaders(keys) == keys
  {
    if keys != [] {
      SelectHeadersKeepsAllowed(keys[1..]);
      assert keys[0] in ALLOWED_HEADERS;
      assert keys == [keys[0]] + keys[1..];
    }
  }

  // ---------------------------------------------------------------------------
  // Column descriptors
  // ---------------------------------------------------------------------------

  /** `{ header, field, type }` */
  datatype Column = Column(header: string, field: string, ty: FieldType)

  /** How many rows the type of a column is inferred from. */
  const SAMPLE_SIZE: nat := 200

  /** `rows.slice(0, 200)` */
  function SampleRows(rows: seq<Row>): seq<Row> {
    if |rows| <= SAMPLE_SIZE then rows else rows[..SAMPLE_SIZE]
  }

  /** `rows.map(r => r[h]).slice(0, 200)` */
  function Sample(rows: seq<Row>, h: string): (vs: seq<JsValue>)
    ensures |vs| <= SAMPLE_SIZE && |vs| <= |rows|
    ensures |rows| <= SAMPLE_SIZE ==> |vs| == |rows|
    ensures |rows| >= SAMPLE_SIZE ==> |vs| == SAMPLE_SIZE
    ensures forall i | 0 <= i < |vs| :: vs[i] == Get(rows[i], h)
  {
    var sample := SampleRows(rows);
    seq(|sample|, i requires 0 <= i < |sample| => Get(sample[i], h))
  }

  /** The descriptor of one kept label. */
  function Describe(rt: Runtime, rows: seq<Row>, h: string): Column {
    Column(h, NormalizeHeader(rt, h), DetectType(rt, h, Sample(rows, h)))
  }

  /** `headers.map(h => ({ header: h, field: normalizeHeader(h), type: detectType(h, sample) }))` */
  function BuildColumns(rt: Runtime, rows: seq<Row>, headers: seq<string>): (cols: seq<Column>)
    ensures |cols| == |headers|
    ensures forall i | 0 <= i < |cols| :: cols[i].header == headers[i]
    ensures forall i | 0 <= i < |cols| :: cols[i].field == NormalizeHeader(rt, headers[i])
    ensures forall i | 0 <= i < |cols| :: headers[i] in FORCE_STRING ==> cols[i].ty == StringType
    ensures forall i | 0 <= i < |cols| :: cols[i].ty == DetectType(rt, headers[i], Sample(rows, headers[i]))
  {
    seq(|headers|, i requires 0 <= i < |headers| => Describe(rt, rows, headers[i]))
  }

  /**
   Only the first 200 rows decide the descriptors: two sheets that agree on
   them get the same columns, whatever follows.
   */
  lemma ColumnsFromSample(rt: Runtime, rows: seq<Row>, rows': seq<Row>, headers: seq<string>)
    requires SampleRows(rows) == SampleRows(rows')
    ensures BuildColumns(rt, rows, headers) == BuildColumns(rt, rows', headers)
  {
    forall h ensures Sample(rows, h) == Sample(rows', h) {
    }
  }

  /** The schema header of every allow-listed label is newline free. */
  lemma AllowedHeadersOneLine()
    ensures forall h | h in ALLOWED_HEADERS :: '\n' !in h && h != ""
  {
  }

  /**
   Over distinct allow-listed labels the descriptors name distinct, well
   formed fields: no two columns write to the same path of a record.
   */
  lemma AllowedColumnsDistinct(rt: Runtime, rows: seq<Row>, headers: seq<string>)
    requires DecomposesLatin1Symbols(rt)
    requires Distinct(headers)
    requires forall i | 0 <= i < |headers| :: headers[i] in ALLOWED_HEADERS
    ensures var cols := BuildColumns(rt, rows, headers);
      && (forall i | 0 <= i < |cols| :: IsFieldName(cols[i].field) && '\n' !in cols[i].header)
      && (forall i, j | 0 <= i < j < |cols| :: cols[i].field != cols[j].field)
  {
    var cols := BuildColumns(rt, rows, headers);
    AllowedHeaderFields(rt);
    AllowedHeadersOneLine();
    forall i | 0 <= i < |cols| ensures IsFieldName(cols[i].field) && '\n' !in cols[i].header {
      assert cols[i].field == NormalizeHeader(rt, headers[i]);
    }
    forall i, j | 0 <= i < j < |cols| ensures cols[i].field != cols[j].field {
      var a :| 0 <= a < |ALLOWED_HEADERS| && ALLOWED_HEADERS[a] == headers[i];
      var b :| 0 <= b < |ALLOWED_HEADERS| && ALLOWED_HEADERS[b] == headers[j];
      assert a != b;
      assert cols[i].field == NormalizeHeader(rt, ALLOWED_HEADERS[a]);
      assert cols[j].field == NormalizeHeader(rt, ALLOWED_HEADERS[b]);
      if a < b {
      } else {
      }
    }
  }

  // ---------------------------------------------------------------------------
  // The model file
  // ---------------------------------------------------------------------------

  /** `` `  ${f.field}: { type: ${f.type} }, // ${f.header}` `` */
  function SchemaLine(c: Column): string {
    "  " + (c.field + (": { type: " + (TypeName(c.ty) + (" }, // " + c.header))))
  }

  /** `lines.join("\n")` */
  function JoinLines(lines: seq<string>): string {
    if lines == [] then ""
    else if |lines| == 1 then lines[0]
    else lines[0] + ("\n" + JoinLines(lines[1..]))
  }

  /** `fields.map(f => ...)`: one schema line per descriptor, in descriptor order. */
  function RenderLines(cols: seq<Column>): (lines: seq<string>)
    ensures |lines| == |cols|
    ensures forall i | 0 <= i < |cols| :: lines[i] == SchemaLine(cols[i])
  {
    if cols == [] then [] else [SchemaLine(cols[0])] + RenderLines(cols[1..])
  }

  function SchemaLines(cols: seq<Column>): string {
    JoinLines(RenderLines(cols))
  }

  /** The template text before the schema lines. */
  const MODEL_HEAD: string :=
    "\nimport mongoose from \"mongoose\";\n\nconst TrasportoSchema = new mongoose.Schema({\n"

  /** The template text after the schema lines. */
  const MODEL_TAIL: string :=
    "\n}, { timestamps: true });\n\nexport default mongoose.model(\"Trasporto\", TrasportoSchema);\n"

  /** The text written to `models/Trasporto.js`. */
  function ModelCode(cols: seq<Column>): string {
    MODEL_HEAD + (SchemaLines(cols) + MODEL_TAIL)
  }

  // ---------------------------------------------------------------------------
  // Reading the model file back
  // ---------------------------------------------------------------------------

  /** Index of the first `c` in `s`, `|s|` when there is none. */
  function Upto(s: string, c: char): (k: nat)
    ensures k <= |s|
    ensures forall i | 0 <= i < k :: s[i] != c
    ensures k < |s| ==> s[k] == c
  {
    if s == [] || s[0] == c then 0 else 1 + Upto(s[1..], c)
  }

  /** `s.split("\n")` */
  function SplitLines(s: string): (lines: seq<string>)
    ensures lines != []
    decreases |s|
  {
    var k := Upto(s, '\n');
    if k == |s| then [s] else [s[..k]] + SplitLines(s[k + 1..])
  }

  function ParseType(name: string): Option<FieldType> {
    if name == "String" then Some(StringType)
    else if name == "Number" then Some(NumberType)
    else if name == "Date" then Some(DateType)
    else None
  }

  /** Whether `s` starts with `p`. */
  predicate StartsWith(s: string, p: string) {
    |p| <= |s| && s[..|p|] == p
  }

  /** The descriptor a schema line was rendered from, when it is one. */
  function ParseSchemaLine(line: string): Option<Column> {
    if !StartsWith(line, "  ") then None
    else
      var rest := line[2..];
      var k := Upto(rest, ':');
      var after := rest[k..];
      if !StartsWith(after, ": { type: ") then None
      else
        var t := after[10..];
        var j := Upto(t, ' ');
        var tail := t[j..];
        var ty := ParseType(t[..j]);
        if ty.None? || !StartsWith(tail, " }, // ") then None
        else Some(Column(tail[7..], rest[..k], ty.value))
  }

  /** Every line parsed, or None as soon as one of them is not a schema line. */
  function ParseSchemaLines(lines: seq<string>): Option<seq<Column>> {
    if forall i | 0 <= i < |lines| :: ParseSchemaLine(lines[i]).Some? then
      Some(seq(|lines|, i requires 0 <= i < |lines| => ParseSchemaLine(lines[i]).value))
    else None
  }

  /** The descriptors a model file was generated from, when it is one. */
  function ParseModel(code: string): Option<seq<Column>> {
    if !(|MODEL_HEAD| + |MODEL_TAIL| <= |code|) then None
    else if code[..|MODEL_HEAD|] != MODEL_HEAD || code[|code| - |MODEL_TAIL|..] != MODEL_TAIL then None
    else
      var body := code[|MODEL_HEAD|..|code| - |MODEL_TAIL|];
      if body == "" then Some([]) else ParseSchemaLines(SplitLines(body))
  }

  lemma Split<T>(a: seq<T>, b: seq<T>)
    ensures (a + b)[..|a|] == a && (a + b)[|a|..] == b
  {
  }

  /** The first `c` of `a + b` is the head of `b` when `a` holds none. */
  lemma UptoAppend(a: string, b: string, c: char)
    requires forall i | 0 <= i < |a| :: a[i] != c
    requires b != [] && b[0] == c
    ensures Upto(a + b, c) == |a|
  {
    assert (a + b)[|a|] == c;
    assert forall i | 0 <= i < |a| :: (a + b)[i] == a[i];
  }

  lemma TypeNameParses(t: FieldType)
    ensures ParseType(TypeName(t)) == Some(t)
    ensures forall i | 0 <= i < |TypeName(t)| :: TypeName(t)[i] != ' '
  {
  }

  /** A schema line gives back the descriptor it was rendered from. */
  lemma ParseSchemaLineInverse(c: Column)
    requires IsFieldName(c.field)
    ensures ParseSchemaLine(SchemaLine(c)) == Some(c)
  {
    var tn := TypeName(c.ty);
    var y := " }, // " + c.header;
    var t := tn + y;
    var after := ": { type: " + t;
    var rest := c.field + after;
    var line := "  " + rest;
    assert line == SchemaLine(c);
    Split("  ", rest);
    assert StartsWith(line, "  ");
    UptoAppend(c.field, after, ':');
    Split(c.field, after);
    Split(": { type: ", t);
    assert StartsWith(after, ": { type: ");
    TypeNameParses(c.ty);
    UptoAppend(tn, y, ' ');
    Split(tn, y);
    Split(" }, // ", c.header);
    assert StartsWith(y, " }, // ");
  }

  /** Joining newline-free lines and splitting at the newlines gives the lines back. */
  lemma {:induction false} SplitJoin(lines: seq<string>)
    requires lines != []
    requires forall i | 0 <= i < |lines| :: '\n' !in lines[i]
    ensures SplitLines(JoinLines(lines)) == lines
  {
    if |lines| == 1 {
      SplitOne(lines[0]);
    } else {
      var rest := JoinLines(lines[1..]);
      SplitCons(lines[0], rest);
      SplitJoin(lines[1..]);
      assert lines == [lines[0]] + lines[1..];
    }
  }

  /** A string without a line break is one line. */
  lemma SplitOne(a: string)
    requires '\n' !in a
    ensures SplitLines(a) == [a]
  {
    assert Upto(a, '\n') == |a|;
  }

  /** The first line break splits off the first line. */
  lemma SplitCons(a: string, rest: string)
    requires '\n' !in a
    ensures SplitLines(a + ("\n" + rest)) == [a] + SplitLines(rest)
  {
    var s := a + ("\n" + rest);
    UptoAppend(a, "\n" + rest, '\n');
    Split(a, "\n" + rest);
    assert s[|a| + 1..] == rest;
  }

  lemma ParseLinesPointwise(lines: seq<string>, cols: seq<Column>)
    requires |lines| == |cols|
    requires forall i | 0 <= i < |lines| :: ParseSchemaLine(lines[i]) == Some(cols[i])
    ensures ParseSchemaLines(lines) == Some(cols)
  {
    assert ParseSchemaLines(lines).value == cols;
  }

  lemma SchemaLineOneLine(c: Column)
    requires IsFieldName(c.field) && '\n' !in c.header
    ensures '\n' !in SchemaLine(c) && SchemaLine(c) != ""
  {
    assert forall i | 0 <= i < |TypeName(c.ty)| :: TypeName(c.ty)[i] != '\n';
  }

  /**
   The generated model file determines the descriptors: reading the schema
   lines back out of it yields every column, in order, with its field, type
   and original label.
   */
  lemma ModelCodeRoundTrip(cols: seq<Column>)
    requires forall i | 0 <= i < |cols| :: IsFieldName(cols[i].field) && '\n' !in cols[i].header
    ensures ParseModel(ModelCode(cols)) == Some(cols)
  {
    var lines := RenderLines(cols);
    var body := SchemaLines(cols);
    ModelBody(body);
    if cols != [] {
      forall i | 0 <= i < |lines| ensures '\n' !in lines[i] && lines[i] != "" {
        SchemaLineOneLine(cols[i]);
      }
      assert |body| >= |lines[0]| > 0;
      SplitJoin(lines);
      forall i | 0 <= i < |lines| ensures ParseSchemaLine(lines[i]) == Some(cols[i]) {
        ParseSchemaLineInverse(cols[i]);
      }
      ParseLinesPointwise(lines, cols);
    }
  }

  /** The template around the schema lines is recognised and peeled off. */
  lemma ModelBody(body: string)
    ensures ParseModel(MODEL_HEAD + (body + MODEL_TAIL)) ==
            if body == "" then Some([]) else ParseSchemaLines(SplitLines(body))
  {
    var code := MODEL_HEAD + (body + MODEL_TAIL);
    Split(MODEL_HEAD, body + MODEL_TAIL);
    Split(body, MODEL_TAIL);
    assert code[|MODEL_HEAD|..|code| - |MODEL_TAIL|] == body;
    assert code[|code| - |MODEL_TAIL|..] == MODEL_TAIL;
  }
}

=== FILE: targa.dfy ===
/**
 `isValidTarga`, the permissive licence-plate check of the create and update
 routes: the value's trimmed string form must be 1 to 20 characters, each an
 ASCII letter of either case, a digit, whitespace or `-`.
 */
module Targa {
  import opened Js

  /** `[A-Z0-9\s\-]` under the `i` flag. */
  predicate IsPlateChar(c: char) {
    IsAsciiLetter(c) || IsDigit(c) || IsWhitespace(c) || c == '-'
  }

  const MAX_PLATE: nat := 20

  /** `/^[A-Z0-9\s\-]{1,20}$/i.test(s)` */
  predicate MatchesPlate(s: string) {
    1 <= |s| <= MAX_PLATE && forall i | 0 <= i < |s| :: IsPlateChar(s[i])
  }

  /** `isValidTarga(t)` */
  function IsValidTarga(rt: Runtime, t: JsValue): (ok: bool)
    ensures ok ==> Truthy(t)
    ensures ok ==> 1 <= |Trim(ToString(rt, t))| <= MAX_PLATE
  {
    if !Truthy(t) && t != Str("") then false
    else MatchesPlate(Trim(ToString(rt, t)))
  }

  /**
   A truthy value is a plate exactly when its trimmed string form matches the
   pattern; a falsy one, the empty string included, never is.
   */
  lemma ValidTargaIff(rt: Runtime, t: JsValue)
    ensures IsValidTarga(rt, t) <==> Truthy(t) && MatchesPlate(Trim(ToString(rt, t)))
  {
    if t == Str("") {
      assert Trim("") == "";
    }
  }

  /** Whitespace around a plate does not change the verdict. */
  lemma TargaIgnoresSurroundingSpace(rt: Runtime, s: string)
    ensures IsValidTarga(rt, Str(s)) == IsValidTarga(rt, Str(Trim(s)))
  {
    TrimIdempotent(s);
    if Trim(s) == "" {
      assert Trim(Trim(s)) == "";
    }
  }

  /** A string without a non-whitespace character is not a plate, however long. */
  lemma BlankRejected(rt: Runtime, s: string)
    requires forall i | 0 <= i < |s| :: IsWhitespace(s[i])
    ensures !IsValidTarga(rt, Str(s))
  {
    TrimBlank(s);
  }

  /** A short run of ASCII letters and digits is a plate. */
  lemma AlnumPlate(rt: Runtime, s: string)
    requires 1 <= |s| <= MAX_PLATE
    requires forall i | 0 <= i < |s| :: IsAsciiLetter(s[i]) || IsDigit(s[i])
    ensures IsValidTarga(rt, Str(s))
  {
    TrimFixes(s);
  }

  /** `"##"` is rejected and `"AB123CD"` accepted. */
  lemma TargaExamples(rt: Runtime)
    ensures !IsValidTarga(rt, Str("##"))
    ensures IsValidTarga(rt, Str("AB123CD"))
  {
    TrimFixes("##");
    assert !IsPlateChar("##"[0]);
    AlnumPlate(rt, "AB123CD");
  }

  /**
   The falsy guard matters: the number `NaN` is rejected even though its
   string form `"NaN"` is a valid plate.
   */
  lemma NaNRejected(rt: Runtime)
    requires rt.numberToString(NaN) == "NaN"
    ensures !IsValidTarga(rt, Num(NaN))
    ensures IsValidTarga(rt, Str("NaN"))
  {
    AlnumPlate(rt, "NaN");
  }

  /** An array or object is judged exactly as its string form would be. */
  lemma ObjectAsString(rt: Runtime, text: string)
    ensures IsValidTarga(rt, Obj(text)) == IsValidTarga(rt, Str(text))
  {
    assert ToString(rt, Obj(text)) == ToString(rt, Str(text)) == text;
    if text == "" {
      assert Trim("") == "";
    }
  }

  /** Two string verdicts carried over to arrays with those string forms. */
  lemma ObjectVerdicts(rt: Runtime, bad: string, good: string)
    requires !IsValidTarga(rt, Str(bad)) && IsValidTarga(rt, Str(good))
    ensures !IsValidTarga(rt, Obj(bad)) && IsValidTarga(rt, Obj(good))
  {
    ObjectAsString(rt, bad);
    ObjectAsString(rt, good);
  }

  /**
   An array member is judged by its string form: `["##"]` is rejected and
   `["AB1"]` accepted.
   */
  lemma ArrayPlates(rt: Runtime)
    ensures !IsValidTarga(rt, Obj("##"))
    ensures IsValidTarga(rt, Obj("AB1"))
  {
    assert !IsValidTarga(rt, Str("##")) by { TargaExamples(rt); }
    assert IsValidTarga(rt, Str("AB1")) by { AlnumPlate(rt, "AB1"); }
    ObjectVerdicts(rt, "##", "AB1");
  }
}

=== FILE: type_inference.dfy ===
/**
 `detectType` of the Excel import: a column becomes `Date`, `Number` or
 `String` according to how many of its sampled cells the date parser and the
 number parser accept.
 */
module TypeInference {
  import opened Js

  /** The three schema types the generated model can declare. */
  datatype FieldType = StringType | NumberType | DateType

  /** The type's name as written into the schema line. */
  function TypeName(t: FieldType): (s: string)
    ensures s in ["String", "Number", "Date"]
  {
    match t
    case StringType => "String"
    case NumberType => "Number"
    case DateType => "Date"
  }

  /** Columns typed `String` whatever their cells hold. */
  const FORCE_STRING: seq<string> := ["AUTISTA CARICO", "AUTISTA SCARICO"]

  /** `v === "" || v === null || v === undefined`: a cell the counters ignore. */
  predicate IsSkipped(v: JsValue) {
    v == Str("") || v.Null? || v.Undefined?
  }

  /** The trimmed string form the parsers are given. */
  function CellText(rt: Runtime, v: JsValue): string {
    Trim(ToString(rt, v))
  }

  /** `!isNaN(Number(str))` */
  predicate ParsesAsNumber(rt: Runtime, v: JsValue) {
    !rt.stringToNumber(CellText(rt, v)).NaN?
  }

  /** `!isNaN(Date.parse(str))` */
  predicate ParsesAsDate(rt: Runtime, v: JsValue) {
    rt.parseDate(CellText(rt, v)).Some?
  }

  /** The three counters of lines 69-77. */
  datatype Counter = Total | Nums | Dates

  /** Whether one cell increments `c`. */
  predicate Counts(rt: Runtime, c: Counter, v: JsValue) {
    !IsSkipped(v) &&
    match c
    case Total => true
    case Nums => ParsesAsNumber(rt, v)
    case Dates => ParsesAsDate(rt, v)
  }

  /** The value of counter `c` after the loop over `values`. */
  function Tally(rt: Runtime, c: Counter, values: seq<JsValue>): nat {
    if values == [] then 0
    else (if Counts(rt, c, values[0]) then 1 else 0) + Tally(rt, c, values[1..])
  }

  /** `nums` and `dates` never exceed `total`, which never exceeds the number of cells. */
  lemma {:induction false} TallyBounds(rt: Runtime, values: seq<JsValue>)
    ensures Tally(rt, Nums, values) <= Tally(rt, Total, values) <= |values|
    ensures Tally(rt, Dates, values) <= Tally(rt, Total, values)
  {
    if values != [] { TallyBounds(rt, values[1..]); }
  }

  /** `total` stays 0 exactly when every cell is skipped. */
  lemma {:induction false} TallyNothing(rt: Runtime, values: seq<JsValue>)
    ensures Tally(rt, Total, values) == 0 <==> forall i | 0 <= i < |values| :: IsSkipped(values[i])
  {
    if values != [] {
      var rest := values[1..];
      TallyNothing(rt, rest);
      if Tally(rt, Total, values) == 0 {
        forall i | 0 <= i < |values| ensures IsSkipped(values[i]) {
          if i > 0 { assert values[i] == rest[i - 1]; }
        }
      } else if !IsSkipped(values[0]) {
      } else {
        var j :| 0 <= j < |rest| && !IsSkipped(rest[j]);
        assert values[j + 1] == rest[j];
      }
    }
  }

  /** Counting is additive, so a counter does not depend on how the column is split. */
  lemma {:induction false} TallyAppend(rt: Runtime, c: Counter, a: seq<JsValue>, b: seq<JsValue>)
    ensures Tally(rt, c, a + b) == Tally(rt, c, a) + Tally(rt, c, b)
  {
    if a == [] {
      assert a + b == b;
    } else {
      ConsAppend(a, b);
      assert (a + b)[1..] == a[1..] + b;
      TallyAppend(rt, c, a[1..], b);
    }
  }

  /** A skipped cell changes no counter, wherever it sits. */
  lemma TallySkipped(rt: Runtime, c: Counter, a: seq<JsValue>, v: JsValue, b: seq<JsValue>)
    requires IsSkipped(v)
    ensures Tally(rt, c, a + [v] + b) == Tally(rt, c, a + b)
  {
    assert [v][1..] == [];
    TallyAppend(rt, c, a, [v]);
    TallyAppend(rt, c, a + [v], b);
    TallyAppend(rt, c, a, b);
  }

  /** `x / total > 0.6` on exact ratios, for the integer counters. */
  lemma RatioThreshold(x: nat, total: nat)
    requires total > 0
    ensures (x as real / total as real > 0.6) <==> 5 * x > 3 * total
  {
    var t := total as real;
    var q := x as real / t;
    assert q * t == x as real;
    ScaleStrict(q, 0.6, t);
    assert 0.6 * t == (3 * total) as real / 5.0;
  }

  /** Multiplying by a positive factor keeps a strict order. */
  lemma ScaleStrict(a: real, b: real, t: real)
    requires t > 0.0
    ensures a > b <==> a * t > b * t
  {
    assert (a - b) * t == a * t - b * t;
    SignOfProduct(a - b, t);
  }

  lemma SignOfProduct(a: real, t: real)
    requires t > 0.0
    ensures a > 0.0 <==> a * t > 0.0
  {
  }

  /** `detectType(header, values)` */
  function DetectType(rt: Runtime, header: string, values: seq<JsValue>): (r: FieldType)
    ensures header in FORCE_STRING ==> r == StringType
    ensures header !in FORCE_STRING && (forall i | 0 <= i < |values| :: IsSkipped(values[i])) ==> r == StringType
  {
    if header in FORCE_STRING then StringType
    else
      var total := Tally(rt, Total, values);
      TallyNothing(rt, values);
      if total == 0 then StringType
      else if 5 * Tally(rt, Dates, values) > 3 * total then DateType
      else if 5 * Tally(rt, Nums, values) > 3 * total then NumberType
      else StringType
  }

  /**
   Outside the forced columns, a column with at least one counted cell is a
   `Date` column exactly when more than 60% of its counted cells parse as
   dates, and otherwise a `Number` column exactly when more than 60% parse as
   numbers. The ratios are exact.
   */
  lemma DetectTypeByRatio(rt: Runtime, header: string, values: seq<JsValue>)
    requires header !in FORCE_STRING && Tally(rt, Total, values) > 0
    ensures var total := Tally(rt, Total, values) as real;
      var dates := Tally(rt, Dates, values) as real;
      var nums := Tally(rt, Nums, values) as real;
      var r := DetectType(rt, header, values);
      && (r == DateType <==> dates / total > 0.6)
      && (r == NumberType <==> !(dates / total > 0.6) && nums / total > 0.6)
  {
    RatioThreshold(Tally(rt, Dates, values), Tally(rt, Total, values));
    RatioThreshold(Tally(rt, Nums, values), Tally(rt, Total, values));
  }

  /**
   The date test comes first: a column whose cells all parse as dates is a
   `Date` column however many of them also parse as numbers.
   */
  lemma {:induction false} DateBeatsNumber(rt: Runtime, header: string, values: seq<JsValue>)
    requires header !in FORCE_STRING && values != []
    requires forall i | 0 <= i < |values| :: !IsSkipped(values[i]) && ParsesAsDate(rt, values[i])
    ensures DetectType(rt, header, values) == DateType
  {
    AllCount(rt, Total, values);
    AllCount(rt, Dates, values);
  }

  lemma {:induction false} AllCount(rt: Runtime, c: Counter, values: seq<JsValue>)
    requires forall i | 0 <= i < |values| :: Counts(rt, c, values[i])
    ensures Tally(rt, c, values) == |values|
  {
    if values != [] {
      assert forall i | 0 <= i < |values| - 1 :: values[1..][i] == values[i + 1];
      AllCount(rt, c, values[1..]);
    }
  }

  function Indicator(b: bool): nat {
    if b then 1 else 0
  }

  lemma TallyFour(rt: Runtime, c: Counter, a: JsValue, b: JsValue, d: JsValue, e: JsValue)
    ensures Tally(rt, c, [a, b, d, e]) == Indicator(Counts(rt, c, a)) + Indicator(Counts(rt, c, b))
                                          + Indicator(Counts(rt, c, d)) + Indicator(Counts(rt, c, e))
  {
    assert [e][1..] == [];
    assert Tally(rt, c, [e]) == Indicator(Counts(rt, c, e));
    assert [d, e][1..] == [e];
    assert Tally(rt, c, [d, e]) == Indicator(Counts(rt, c, d)) + Tally(rt, c, [e]);
    assert [b, d, e][1..] == [d, e];
    assert Tally(rt, c, [b, d, e]) == Indicator(Counts(rt, c, b)) + Tally(rt, c, [d, e]);
    assert [a, b, d, e][1..] == [b, d, e];
    assert Tally(rt, c, [a, b, d, e]) == Indicator(Counts(rt, c, a)) + Tally(rt, c, [b, d, e]);
  }

  /** A string cell without surrounding whitespace: the parsers see its text unchanged. */
  predicate Plain(s: string) {
    s != [] && !IsWhitespace(s[0]) && !IsWhitespace(s[|s| - 1])
  }

  /** Whether counter `c` counts a plain string cell holding `s`. */
  predicate Accepts(rt: Runtime, c: Counter, s: string) {
    match c
    case Total => true
    case Nums => !rt.stringToNumber(s).NaN?
    case Dates => rt.parseDate(s).Some?
  }

  lemma PlainCell(rt: Runtime, c: Counter, s: string)
    requires Plain(s)
    ensures Counts(rt, c, Str(s)) == Accepts(rt, c, s)
  {
    TrimFixes(s);
  }

  /** A counter over four plain string cells. */
  lemma PlainTally(rt: Runtime, c: Counter, a: string, b: string, d: string, e: string)
    requires Plain(a) && Plain(b) && Plain(d) && Plain(e)
    ensures Tally(rt, c, [Str(a), Str(b), Str(d), Str(e)]) ==
            Indicator(Accepts(rt, c, a)) + Indicator(Accepts(rt, c, b))
            + Indicator(Accepts(rt, c, d)) + Indicator(Accepts(rt, c, e))
  {
    PlainCell(rt, c, a);
    PlainCell(rt, c, b);
    PlainCell(rt, c, d);
    PlainCell(rt, c, e);
    TallyFour(rt, c, Str(a), Str(b), Str(d), Str(e));
  }

  /**
   Three plain number cells and a plain word: a `Number` column when no cell
   is a date, a `Date` column when the three numbers are.
   */
  lemma ThreeNumbersAndWord(rt: Runtime, header: string, a: string, b: string, d: string, e: string)
    requires header !in FORCE_STRING
    requires Plain(a) && Plain(b) && Plain(d) && Plain(e)
    requires !rt.stringToNumber(a).NaN? && !rt.stringToNumber(b).NaN? && !rt.stringToNumber(d).NaN?
    requires rt.stringToNumber(e).NaN? && rt.parseDate(e) == None
    ensures rt.parseDate(a) == None && rt.parseDate(b) == None && rt.parseDate(d) == None ==>
              DetectType(rt, header, [Str(a), Str(b), Str(d), Str(e)]) == NumberType
    ensures rt.parseDate(a).Some? && rt.parseDate(b).Some? && rt.parseDate(d).Some? ==>
              DetectType(rt, header, [Str(a), Str(b), Str(d), Str(e)]) == DateType
  {
    PlainTally(rt, Total, a, b, d, e);
    PlainTally(rt, Nums, a, b, d, e);
    PlainTally(rt, Dates, a, b, d, e);
  }

  /**
   Three numbers and a word: with a date parser that rejects `"1"`, `"2"`, `"3"`
   and `"x"`, the column is a `Number` column; with one that takes the bare
   numbers for years, the same column is a `Date` column.
   */
  lemma NumbersAndWord(rt: Runtime)
    requires rt.stringToNumber("1").Finite? && rt.stringToNumber("2").Finite? && rt.stringToNumber("3").Finite?
    requires rt.stringToNumber("x") == NaN && rt.parseDate("x") == None
    ensures rt.parseDate("1") == None && rt.parseDate("2") == None && rt.parseDate("3") == None ==>
              DetectType(rt, "NOTE", [Str("1"), Str("2"), Str("3"), Str("x")]) == NumberType
    ensures rt.parseDate("1").Some? && rt.parseDate("2").Some? && rt.parseDate("3").Some? ==>
              DetectType(rt, "NOTE", [Str("1"), Str("2"), Str("3"), Str("x")]) == DateType
  {
    assert Plain("1") && Plain("2") && Plain("3") && Plain("x");
    ThreeNumbersAndWord(rt, "NOTE", "1", "2", "3", "x");
  }
}

=== FILE: write_validation.dfy ===
/**
 The checks the create, replace and partial-update routes apply to a request
 body before it reaches the database: the plate first, then the date field,
 which is replaced by the parsed date. The three routes share the same code,
 so one function models all of them.
 */
module WriteValidation {
  import opened Js
  import opened Targa
  import opened DateField

  /** A JSON request body: member name to value, an absent member standing for
   `undefined`, an array or object member standing as `Obj` by its string form. */
  type Body = map<string, JsValue>

  /** `body[k]` */
  function Member(b: Body, k: string): JsValue {
    if k in b then b[k] else Undefined
  }

  /** The body to store, or the 400 response that ends the request. */
  datatype Verdict = Accepted(body: Body) | Rejected(status: int, message: string)

  /** The date the routes store for a truthy date member, or None for an Invalid Date. */
  function ParsedDate(rt: Runtime, b: Body, df: string): Option<int> {
    NewDate(rt, Member(b, df))
  }

  /**
   Lines 149-162 (and 177-188, 203-214): `req.body || {}`, the plate check
   when `targa` is truthy, then the date check when the schema has a date
   field and the body a truthy value for it. None stands for a missing body.
   */
  function ValidateWrite(rt: Runtime, body: Option<Body>, paths: seq<string>): (v: Verdict)
    ensures v.Rejected? ==> v.status == 400 && v.message in ["Targa non valida", "Data non valida"]
  {
    var b := body.GetOr(map[]);
    if Truthy(Member(b, "targa")) && !IsValidTarga(rt, Member(b, "targa")) then
      Rejected(400, "Targa non valida")
    else
      match FindDateField(paths)
      case None => Accepted(b)
      case Some(df) =>
        if !Truthy(Member(b, df)) then Accepted(b)
        else
          match ParsedDate(rt, b, df)
          case None => Rejected(400, "Data non valida")
          case Some(t) => Accepted(b[df := DateObj(t)])
  }

  /** A truthy plate that is not valid is reported first, whatever the date holds. */
  lemma TargaCheckedFirst(rt: Runtime, body: Body, paths: seq<string>)
    requires Truthy(Member(body, "targa")) && !IsValidTarga(rt, Member(body, "targa"))
    ensures ValidateWrite(rt, Some(body), paths) == Rejected(400, "Targa non valida")
  {
  }

  /**
   A body is accepted exactly when its plate is absent, falsy or valid and
   its date, if the schema has a date field and the body a truthy value for
   it, parses; an invalid date is reported as such.
   */
  lemma AcceptedIff(rt: Runtime, body: Body, paths: seq<string>)
    ensures var v := ValidateWrite(rt, Some(body), paths);
      var df := FindDateField(paths);
      var plateOk := !Truthy(Member(body, "targa")) || IsValidTarga(rt, Member(body, "targa"));
      var dateOk := df.None? || !Truthy(Member(body, df.value)) || ParsedDate(rt, body, df.value).Some?;
      && (v.Accepted? <==> plateOk && dateOk)
      && (plateOk && !dateOk ==> v == Rejected(400, "Data non valida"))
  {
  }

  /**
   An accepted body keeps every member; only the date member, when present
   and truthy, is replaced by the parsed date.
   */
  lemma AcceptedChangesOnlyDate(rt: Runtime, body: Body, paths: seq<string>)
    requires ValidateWrite(rt, Some(body), paths).Accepted?
    ensures var out := ValidateWrite(rt, Some(body), paths).body;
      var df := FindDateField(paths);
      && out.Keys == body.Keys
      && (forall k | k in body && (df.None? || k != df.value) :: out[k] == body[k])
      && (df.Some? && Truthy(Member(body, df.value)) ==>
            out[df.value] == DateObj(ParsedDate(rt, body, df.value).value))
  {
  }

  /** A request without a body is accepted as the empty object. */
  lemma MissingBody(rt: Runtime, paths: seq<string>)
    ensures ValidateWrite(rt, None, paths) == Accepted(map[])
  {
  }

  /**
   Validation is stable: the body it accepts is accepted again unchanged,
   since the parsed date converts to itself and the plate is left alone.
   */
  lemma ValidateIdempotent(rt: Runtime, body: Body, paths: seq<string>)
    requires ValidateWrite(rt, Some(body), paths).Accepted?
    ensures var out := ValidateWrite(rt, Some(body), paths).body;
      ValidateWrite(rt, Some(out), paths) == Accepted(out)
  {
    var out := ValidateWrite(rt, Some(body), paths).body;
    var df := FindDateField(paths);
    if df.Some? {
      NoDateStart("targa");
      assert df.value != "targa";
      assert Member(out, "targa") == Member(body, "targa");
      if Truthy(Member(body, df.value)) {
        assert out == body[df.value := DateObj(ParsedDate(rt, body, df.value).value)];
        assert out[df.value := DateObj(ParsedDate(rt, out, df.value).value)] == out;
      }
    }
  }

  /**
   An object under the date field is truthy, and `new Date({})` parses its
   string form `[object Object]`: a parser that rejects that text makes the
   request fail with `Data non valida`.
   */
  lemma ObjectDateRejected(rt: Runtime, paths: seq<string>)
    requires "data" in paths
    requires rt.parseDate("[object Object]") == None
    ensures ValidateWrite(rt, Some(map["data" := Obj("[object Object]")]), paths) == Rejected(400, "Data non valida")
  {
    var b := map["data" := Obj("[object Object]")];
    assert Member(b, "targa") == Undefined;
    assert ParsedDate(rt, b, "data") == None;
  }
}
